=== FILE: README.md ===
# peanut-stash core, modelled in Dafny

peanut-stash is a command-line tool that stashes short terminal texts
("peanuts") in a per-user cloud store. Each text is encrypted under the
user's RSA public key. The tool lists the stash latest first, page by page,
and can copy, print, run or delete an item. It also imports texts that other
users pushed into the user's inbox.

This project models the decision logic inside the handlers as pure functions
over an abstract insertion-ordered store, and proves what that logic promises.

- **Stash** (`peanuts/stash.js`):
  - the category menu and its `DAT:index:name` values, with the add, select
    and delete branches;
  - the length gate and the pushed record;
  - the inbox import;
  - the decrypt-and-reverse listing, with its page arithmetic and page menu;
  - item selection, delete and pop.
- **Users** (`peanuts/users.js`):
  - the registration and reset password policies;
  - the `.`/`_` store-key encoding;
  - the contacts node, its add and delete updates and its sorted menu;
  - key-pair provisioning on first login.
- **Utilities** (`peanuts/utilities.js`):
  - the email validator;
  - the `stateMachine` command dispatch and the usage text it contradicts;
  - the symmetric `iv:ciphertext` framing;
  - the public-key wrappers.

Module layout:

| module | file | content |
|---|---|---|
| `Wrappers` | wrappers.dfy | `Option`, `Result`, `byte` |
| `Strings` | strings.dfy | the JavaScript string built-ins the program uses: `replace(/c/g, d)`, `split`, `String(n)`, array indexing by property name, UTF-16 `length`, code-point order |
| `Email` | email.dfy | `isValidEmail` as a scan, proved equal to the regular expression's meaning |
| `Base64` | base64.dfy | base64 as in section 4 of RFC 4648, with its round trip |
| `Utf8` | utf8.dfy | UTF-8 text encoding, with its round trip |
| `Crypto` | crypto.dfy | the four wrappers; AES-256-CBC and RSA are supplied as functions, constrained by correctness predicates |
| `Prompts` | prompts.dfy | menu options, tagged values, `slice(4).split(':')` decoding |
| `Store` | store.dfy | push-keyed collections: `push` appends under a fresh, newer key, `remove` deletes one key |
| `Users` | users.dfy | the users module |
| `Stash` | stash.dfy | the stash module |
| `Dispatch` | dispatch.dfy | `stateMachine` and the usage text |

Interactive prompts become inputs: the position picked in a menu, the action
picked for an item, and the answer to a confirmation. The cloud store becomes
values passed in and returned. A randomly drawn IV and a generated key pair
are parameters.

The maximum text length and the page size live in a constants file that is
not part of this model, so they are parameters (`maxLength`, `m`).

Where the code and its design notes differ, the model follows the code:
- A listing aborts on the first record that fails to decrypt.
- The register and reset short forms are swapped relative to the usage text.
- Password reset has no length check.
- The list action's browser branch is dead: the text it tests has been cut at
  its first ':', and both "https://" and "http://" contain one, so a confirmed
  execute always runs the text as a command (`Stash.ListStep`).
- An address the email check accepts can still have a store key the store
  refuses; adding it as a contact or logging in with it then fails.

## Model

| member | source | states |
|---|---|---|
| Email.ValidIffPattern | peanuts/utilities.js:47-50 | the scanning validator accepts exactly the strings `^[^\s@]+@[^\s@]+\.[^\s@]+$` matches: a non-empty local part and a domain with an inner '.', no whitespace and one '@' |
| Email.ValidShape | peanuts/utilities.js:48 | an accepted address has no whitespace and exactly one '@' |
| Email.ValidFromParts | peanuts/utilities.js:48 | any non-empty '@'- and whitespace-free local part, host and top-level label joined by '@' and '.' is accepted |
| Dispatch.SignedInRouting | peanuts/utilities.js:75-128 | for a signed-in user each of users/u, stash/s, list/l, register/r, login/i, logout/o, about/a, reset/rs reaches its handler, and no other word does; every other word shows help; register and login get the second word |
| Dispatch.SignedOutRouting | peanuts/utilities.js:135-158 | signed out, only register/r, login/i and about/a run; stash, list, users, reset and logout are never reached; everything else is help plus the not-signed-in error |
| Dispatch.EmptyLineShowsHelp | peanuts/utilities.js:125-128 | a command line with no words shows help, with the error when signed out |
| Dispatch.HelpDispatchMismatch | peanuts/utilities.js:23-36 | of the advertised commands exactly login, logout, users, stash, list and about work under their advertised short forms; "rs" runs reset and "r" runs register, the reverse of the usage text; pop/p and server are not dispatched |
| Dispatch.Route | peanuts/utilities.js:68-164 | signed out, the switch never reaches stash, list, users, reset or logout and never shows the signed-in help; signed in, it never shows the not-signed-in help |
| Dispatch.Arg | peanuts/utilities.js:98-104 | a definition of JavaScript `args[n]`: the word at position n is present exactly when the command line has more than n words, and is then that word; otherwise it is undefined; `Dispatch.SignedInRouting` is what uses it |
| Crypto.SymmetricRoundTrip | peanuts/utilities.js:167-183 | for a correct AES-CBC, decrypting the framed `base64(iv) ':' base64(ct)` text returns the data; the split on ':' recovers both parts because base64 text has no ':' |
| Crypto.FreshIvDistinct | peanuts/utilities.js:169-173 | two encryptions of the same data under different IVs give different framed texts, and both decrypt to the data |
| Crypto.EncryptSymmetrical | peanuts/utilities.js:167-174 | the framed text splits on ':' into exactly two fields, and the first decodes to the IV |
| Crypto.DecryptSymmetrical | peanuts/utilities.js:177-183 | a text with no ':' is refused as unframed, and any text that decrypts has at least two fields |
| Crypto.PublicKeyRoundTrip | peanuts/utilities.js:186-197 | for a matching key pair under a correct RSA, a text encrypts exactly when its UTF-8 form fits the key's payload capacity, and decrypting the base64 ciphertext returns the text |
| Crypto.EncryptWithPublicKey | peanuts/utilities.js:186-190 | the wrapper's output is base64 text, so it has no ':'; its only failure is the cipher rejecting the payload |
| Crypto.DecryptWithPrivateKey | peanuts/utilities.js:192-197 | text that is not base64 is rejected before any decryption |
| Base64.RoundTrip | peanuts/utilities.js:189 | decoding the base64 text of any octets gives back those octets |
| Base64.Injective | peanuts/utilities.js:173 | different octet strings have different base64 texts |
| Base64.NoColon | peanuts/utilities.js:173 | base64 text never contains ':' |
| Utf8.RoundTrip | peanuts/utilities.js:187 | decoding the UTF-8 octets of a text gives back the text |
| Utf8.AsciiLength | peanuts/utilities.js:187 | an ASCII text has as many UTF-8 octets as characters |
| Users.CheckRegistration | peanuts/users.js:168-195 | registration proceeds, with that email and password, exactly when the email is valid, both entries agree, the password has at least 8 UTF-16 code units and passes all four character-class tests; an invalid email is the first rejection |
| Users.MissingEmailRejected | peanuts/users.js:169-172 | a missing email argument (the text "undefined") is rejected as invalid |
| Users.CheckReset | peanuts/users.js:252-278 | reset proceeds, with the first new entry, exactly when a session is cached, the entered password equals the cached one, both new entries agree and pass the four class tests; no session and a wrong password are the first rejections |
| Users.ResetWeakerThanRegistration | peanuts/users.js:187-195 | every password registration accepts, reset accepts too, and reset also accepts "aA1!", which registration rejects |
| Users.KeyRoundTrip | peanuts/users.js:85 | decoding the store key of an email gives the email back exactly when it has no '_' |
| Users.DecodedKeyRoundTrip | peanuts/users.js:327 | encoding a decoded key gives the key back exactly when it has no '.' |
| Users.SameKeyIff | peanuts/users.js:359 | two emails share a store key exactly when they differ only by '.' against '_' at the same positions |
| Users.KeyCollision | peanuts/users.js:85 | any local part containing '.' yields two different valid addresses, one with '.' and one with '_', that share one store key |
| Users.EncodeKey | peanuts/users.js:359 | a store key has the email's length and contains no '.' |
| Users.AddContact | peanuts/users.js:349-363 | an invalid email writes nothing; a valid email whose key the store refuses ('#', '$', '[', ']' or a control character) fails the update and writes nothing; otherwise exactly its encoded key is set to "true", keeping every other contact |
| Users.ValidEmailRefusedKey | peanuts/users.js:349-363 | an address with '#' in its local part passes the email check and is then refused by the store |
| Users.DeleteContact | peanuts/users.js:389-392 | deleting removes exactly the selected key and keeps every other contact's value |
| Users.SortByLabel | peanuts/users.js:330 | the menu entries come out ordered by label and are a permutation of the input |
| Users.ContactMenu | peanuts/users.js:319-334 | the menu is the contact entries sorted by label, then "Add", then "Cancel" last |
| Users.ContactMenuSelection | peanuts/users.js:324-334 | every contact entry's value is "DAT:" plus a stored key, labelled with that key decoded; `slice(4)` of it is that key; every stored key is offered |
| Users.ManageUsers | peanuts/users.js:341-398 | Cancel writes nothing; Add is AddContact; picking the contact at menu position j and then Delete removes exactly the key that entry carries (ContactMenuSelection ties it to a stored key), keeping every other contact; picking a contact and then Cancel writes nothing |
| Users.Login | peanuts/users.js:35-160 | login succeeds exactly for a valid email with a successful verified sign-in whose store key the store accepts, and a refused key is the last rejection; only the user's own node can change; a key pair is written only when the private node is missing; an existing node is left as it was |
| Users.LoginIdempotent | peanuts/users.js:100-103 | a second login changes nothing, whatever key pair it generates |
| Users.CollidingLoginProvisionsNothing | peanuts/users.js:85-103 | after one address has logged in, a login as another valid address with the same store key provisions nothing |
| Prompts.DecodeIndexedValue | peanuts/stash.js:333-338 | decoding `"DAT:" + i + ":" + data` returns the index text of i, and returns data itself exactly when data has no ':'; otherwise it returns the text before the first ':' |
| Prompts.DecodeIndexedPosition | peanuts/stash.js:336 | the decoded index names array element i for i >= 0 and no element for a negative i |
| Prompts.IndexedValueTag | peanuts/stash.js:300 | a data option's value starts with the "DAT:" tag |
| Strings.ParseIndexOfInt | peanuts/stash.js:439 | the decimal text of an integer, used as an array index, reads back element i exactly when i >= 0 |
| Strings.SplitAfterPrefix | peanuts/utilities.js:178 | splitting `a ':' b` for a colon-free a yields a, then the fields of b |
| Store.Push | peanuts/stash.js:175 | push appends one record under a key different from all existing ones and keeps the others in order |
| Store.RemoveAt | peanuts/stash.js:439 | removing the key of the child at position i deletes exactly that child and keeps the rest in order |
| Store.LookupAt | peanuts/stash.js:533-537 | in keys that increase, the record under the key at position i is the child at position i; pop uses this for its last key |
| Stash.CategoryOptions | peanuts/stash.js:55-76 | the category menu is "DAT:-1:default" first, the loaded categories latest first, each with its load-order index, and "MNG:manage" last |
| Stash.ManageOptions | peanuts/stash.js:70-101 | the management menu is the loaded categories latest first, then "#Add#" options: one more than the number of earlier visits to "#Manage#", since each visit appends one to the same list |
| Stash.DefaultOptionValue | peanuts/stash.js:75 | the default option's value is the literal "DAT:-1:default" |
| Stash.DefaultOptionDecodes | peanuts/stash.js:141-146 | the default option decodes to "default" with an index that names no loaded category |
| Stash.CategoryOptionDecodes | peanuts/stash.js:55-146 | a loaded category's option decodes to its load-order index and to its name cut at the first ':', which is the whole name when it has no ':'; it is captioned with the name |
| Stash.SelectCategory | peanuts/stash.js:87-147 | the category step writes nothing unless "#Manage#" was picked |
| Stash.ManageCategory | peanuts/stash.js:93-102 | a pick among the "#Add#" options selects the typed name and pushes it as a new category |
| Stash.ManageLoaded | peanuts/stash.js:109-137 | select writes nothing; delete always falls back to "default", keeps the collection's clock and never adds a record; an index that does not parse, or parses to a position at or beyond the loaded list, removes nothing (the source throws there instead; see Left out) |
| Stash.SelectCategoryMeaning | peanuts/stash.js:93-147 | default selects "default"; a listed pick selects its name cut at ':'; "#Add#" selects the typed name and pushes it; a managed select writes nothing; a managed delete removes exactly the record at the decoded load-order index and selects "default" |
| Stash.StashPeanut | peanuts/stash.js:159-175 | text longer than the limit is rejected; otherwise the pushed record holds the public-key encryption of the text, the user's email and id and the selected category, and every earlier record stays |
| Stash.StashGate | peanuts/stash.js:160-175 | for a correct cipher, stashing succeeds exactly when the text passes the length gate and fits the key, and the stored ciphertext decrypts to the text |
| Stash.GateAdmitsUnencryptable | peanuts/stash.js:157-167 | with a 2048 limit and a 214-octet OAEP capacity, a 215-character text passes the gate and still fails to encrypt |
| Stash.StashRound | peanuts/stash.js:78-185 | one loop round: the category write happens before the gate, so it survives a rejected text; the inbox is untouched and the stash only grows |
| Stash.CategoryDeleteIsolation | peanuts/stash.js:131-136 | deleting a category removes only that category record; no stash record, and so no record's category, changes |
| Stash.ImportPending | peanuts/stash.js:206-217 | importing appends one imported record per inbox entry, in inbox order, keeps the existing records, and leaves the inbox empty |
| Stash.Import | peanuts/stash.js:200-221 | the import keeps the categories and every existing record and empties the inbox |
| Stash.Imported | peanuts/stash.js:207-213 | a definition of the record the import builds: it keeps the inbox entry's ciphertext, sender email and sender id and is labelled "imported"; `Stash.ImportThenList` is its end-to-end property |
| Stash.DecryptAll | peanuts/stash.js:244-257 | decryption succeeds exactly when every record decrypts, and each listed item shows its record's text, author, category and key |
| Stash.Reverse | peanuts/stash.js:260 | position j of the reversed list holds position n-1-j |
| Stash.ListPeanuts | peanuts/stash.js:237-260 | an empty stash is "No Peanuts Stashed"; otherwise listed position j shows the record pushed (n-1-j)-th, so position 0 is the most recent |
| Stash.PageSize | peanuts/stash.js:280-286 | page p < floor(n/m) shows m items; page floor(n/m) shows n - p*m < m; later pages show none; shown positions lie in [p*m, n) |
| Stash.PageSizeAsWritten | peanuts/stash.js:280-281 | the same in the listing's own terms: n/m, p*m, and n mod m items on the last page |
| Stash.ItemsOnPageAsWritten | peanuts/stash.js:280-286 | the item count equals the listing's `p < floor(n/m) ? m : n - p*m`, used as a loop bound |
| Stash.ItemOption | peanuts/stash.js:293-301 | an item's option is captioned with its text first; its value carries the "DAT:" tag, so it is never taken for "Next Page" or "Cancel" |
| Stash.EveryItemOnItsPage | peanuts/stash.js:280-305 | item i is shown on page floor(i/m), which is reachable through "Next Page" |
| Stash.PageOptions | peanuts/stash.js:285-320 | page p's menu is its items at positions PageStart+k, then "Next Page" exactly when p < floor(n/m), then "Cancel" last |
| Stash.EmptyLastPage | peanuts/stash.js:280-320 | when n is a positive multiple of m, the page before the last offers "Next Page", and the last page shows only "Cancel" |
| Stash.ItemChoiceDecodes | peanuts/stash.js:300-338 | choosing item k of page p decodes to listing position p*m+k exactly, and to that item's text exactly when it has no ':' |
| Stash.DeleteRemovesChosen | peanuts/stash.js:428-439 | deleting the item chosen at position i removes the record pushed (n-1-i)-th and keeps every other record in order |
| Stash.DeleteAt | peanuts/stash.js:439 | deleting by a value that decodes to position i removes the record listed at i, and only it |
| Stash.DeleteChosen | peanuts/stash.js:439 | deleting a chosen item never adds a record and keeps the collection's clock; `Stash.DeleteAt` states the exact removal |
| Stash.ListedKey | peanuts/stash.js:249-260 | listed position i carries the key of the record pushed (n-1-i)-th |
| Stash.DataStep | peanuts/stash.js:330-498 | acting on a data option copies, prints or runs its payload cut at the first ':' (a confirmed execute always runs it); a confirmed delete removes the decoded record; an unconfirmed one exits |
| Stash.ItemStep | peanuts/stash.js:330-494 | acting on item k of page p copies, prints or runs listing item p*m+k's text cut at ':', or the whole text when it has no ':' |
| Stash.ControlStep | peanuts/stash.js:501-507 | "Next Page" moves to page p+1 and "Cancel" exits |
| Stash.ListStep | peanuts/stash.js:330-507 | the browser branch is never reached, because the acted-on text was cut at its first ':' and both URL prefixes contain one; a run is always a confirmed execute of a text without ':'; a delete is always a confirmed delete; a control value only exits or shows a page |
| Stash.PopPeanut | peanuts/stash.js:528-547 | pop fails on an empty stash; otherwise it looks up the record under the last key and succeeds exactly when that record, the last child, decrypts, returning its text, and fails with that key and the decryption error otherwise |
| Stash.PopIsFirstListed | peanuts/stash.js:533-537 | pop returns the text the listing shows first |
| Stash.StashThenList | peanuts/stash.js:165-260 | stashing a text into an empty stash and listing shows exactly that text, author and category |
| Stash.ImportThenList | peanuts/stash.js:206-260 | an inbox entry encrypted for the user, imported into an empty stash, lists as its plaintext under the sender and "imported", and the inbox is empty |

## Left out

- Store access (`get`, `push`, `remove`, `set`, `update`, `serverTimestamp`) is modelled as values in and out. Timestamps are not recorded, because nothing reads them.
- Prompts, colours, the spinner, console output and `process.exit` are inputs or outcomes, not behaviour. The cancel symbol a prompt returns on Ctrl-C is not modelled.
- The clipboard, `execSync` and the undefined `open` are outcomes (`Copied`, `Ran`, `Opened`); their effects are not modelled. `Opened` is never produced, as `Stash.ListStep` proves.
- Sharing an item (peanuts/stash.js:362-417) is the outcome `Shared`. Its contact menu, the recipient lookup and the push into the recipient's inbox are not modelled. The receiving side is `Stash.ImportThenList`.
- The import's `forEach(async …)` runs its pushes and removes concurrently. The model runs them one entry after another, in inbox order. Interleavings are not modelled.
- The listing copies the sender's id from a field `uid` that records do not have, so the source's listed `userId` is always undefined. `Stash.Listed` omits it.
- A delete of a listing index that names no element throws inside the `try` and exits. `Stash.DeleteChosen` returns the stash unchanged in that case.
- Stash.ManageLoaded: a delete whose index names no loaded category makes `categories[metaDataIndex].databaseRef` throw outside any `try` (peanuts/stash.js:134), which ends the command with nothing stashed. The model removes nothing, selects "default" and goes on. No option the menu builds decodes to such an index (`Stash.CategoryOptionDecodes`).
- Node's base64 decoding is lenient: `Buffer.from(…, 'base64')` (peanuts/utilities.js:179 and 193) and `decipher.update(…, 'base64')` (line 180) skip non-alphabet characters and decode unpadded text. `Base64.Decode` accepts only canonical padded text. `privateDecrypt` itself throws on a bad padding, which the model's cipher `None` covers. Invalid UTF-8 is rejected rather than replaced with U+FFFD.
- RSA key generation, OAEP randomness, AES-256-CBC and its PKCS#7 padding are supplied as functions. The properties hold for any functions that meet `Crypto.CorrectFor` / `Crypto.SymCorrectFor`.
- `localeCompare` is modelled as code-point order (`Strings.LessEq`). Locale collation is not modelled, and neither is the UTF-16 code-unit order that puts characters above U+FFFF before U+E000 to U+FFFF.
- Users.SortByLabel: the source's `Array.prototype.sort` is stable; the model sorts stably by insertion but only states sortedness and permutation.
- The constants file that defines `MAX_PEANUT_TEXT_LENGTH` and `MAX_ITEMS_PER_PAGE` is not part of this model. Both limits are parameters, and the page size is assumed positive (`m > 0`): with a page size of 0 the listing's `Math.floor(n / 0)` is Infinity, so it would offer "Next Page" forever and show no items, which the model does not follow.
- Not modelled, because they are session and authentication I/O:
  - the session cache file and the machine-id key;
  - the auth service's sign-in, user creation, verification mail and password update;
  - `logoutUser`, `showArgs` text, `fetchJsonAPI`, `figlet` and `pnut.js`.
- Users.AddContact and Users.Login: the store takes a '/' in a key as a path separator, so the address's node is nested rather than written under one flat key (and lands inside another account's node when the text before the '/' is itself a key). The model keeps it as one flat key. Only the refused characters are modelled, as errors.
- The signed-out `login` branch calls the login handler without the database handle. The model routes it like the signed-in one.

=== FILE: base64.dfy ===
/**
  The base64 encoding of section 4 of RFC 4648, as `Buffer.toString('base64')`
  writes it: every three octets become four characters of the 64-character
  alphabet, and a final group of one or two octets is padded with '='.
*/
module Base64 {
  import opened Wrappers

  /** The character for a 6-bit value: A-Z, a-z, 0-9, '+', '/'. */
  function Digit(v: nat): (c: char)
    requires v < 64
  {
    if v < 26 then ('A' as int + v) as char
    else if v < 52 then ('a' as int + (v - 26)) as char
    else if v < 62 then ('0' as int + (v - 52)) as char
    else if v == 62 then '+'
    else '/'
  }

  /** The 6-bit value of an alphabet character; None for every other character. */
  function DigitValue(c: char): (r: Option<nat>)
    ensures r.Some? ==> r.value < 64
  {
    if 'A' <= c <= 'Z' then Some(c as int - 'A' as int)
    else if 'a' <= c <= 'z' then Some(c as int - 'a' as int + 26)
    else if '0' <= c <= '9' then Some(c as int - '0' as int + 52)
    else if c == '+' then Some(62)
    else if c == '/' then Some(63)
    else None
  }

  lemma DigitRoundTrip(v: nat)
    requires v < 64
    ensures DigitValue(Digit(v)) == Some(v)
  {
  }

  /** A character that may appear in encoded text: an alphabet character or the pad. */
  predicate IsEncodingChar(c: char)
  {
    DigitValue(c).Some? || c == '='
  }

  function EncodeGroup(b0: byte, b1: byte, b2: byte): (r: string)
    ensures |r| == 4
  {
    [Digit(b0 / 4), Digit((b0 % 4) * 16 + b1 / 16), Digit((b1 % 16) * 4 + b2 / 64), Digit(b2 % 64)]
  }

  function EncodeTail1(b0: byte): (r: string)
    ensures |r| == 4
  {
    [Digit(b0 / 4), Digit((b0 % 4) * 16), '=', '=']
  }

  function EncodeTail2(b0: byte, b1: byte): (r: string)
    ensures |r| == 4
  {
    [Digit(b0 / 4), Digit((b0 % 4) * 16 + b1 / 16), Digit((b1 % 16) * 4), '=']
  }

  /** Encodes octets; the text uses only alphabet characters and '=' and never a ':'. */
  function Encode(b: seq<byte>): (r: string)
    ensures |r| % 4 == 0
    ensures |r| == 0 <==> |b| == 0
    ensures forall k :: 0 <= k < |r| ==> IsEncodingChar(r[k])
    decreases |b|
  {
    if |b| == 0 then ""
    else if |b| == 1 then EncodeTail1(b[0])
    else if |b| == 2 then EncodeTail2(b[0], b[1])
    else EncodeGroup(b[0], b[1], b[2]) + Encode(b[3..])
  }

  /** Decodes one four-character group, honouring the '=' padding of a final group. */
  function DecodeQuad(s: string, last: bool): (r: Option<seq<byte>>)
    requires |s| == 4
    ensures r.Some? ==> 1 <= |r.value| <= 3
  {
    var v0 := DigitValue(s[0]);
    var v1 := DigitValue(s[1]);
    var v2 := DigitValue(s[2]);
    var v3 := DigitValue(s[3]);
    if v0.None? || v1.None? then None
    else if last && s[2] == '=' && s[3] == '=' then
      Some([v0.value * 4 + v1.value / 16])
    else if v2.None? then None
    else if last && s[3] == '=' then
      Some([v0.value * 4 + v1.value / 16, (v1.value % 16) * 16 + v2.value / 4])
    else if v3.None? then None
    else
      Some([v0.value * 4 + v1.value / 16, (v1.value % 16) * 16 + v2.value / 4, (v2.value % 4) * 64 + v3.value])
  }

  /**
    Decodes text of whole four-character groups; only the last group may carry
    padding. Any other character, or a length that is not a multiple of four,
    is an error.
  */
  function Decode(s: string): (r: Option<seq<byte>>)
    decreases |s|
  {
    if |s| == 0 then Some([])
    else if |s| < 4 then None
    else if |s| == 4 then DecodeQuad(s, true)
    else
      match DecodeQuad(s[..4], false)
      case None => None
      case Some(head) =>
        match Decode(s[4..])
        case None => None
        case Some(tail) => Some(head + tail)
  }

  /** A high part and a low part below the divisor recombine and split back exactly. */
  lemma Recombine16(h: nat, l: nat)
    requires l < 16
    ensures (h * 16 + l) / 16 == h && (h * 16 + l) % 16 == l
  {
  }

  lemma Recombine4(h: nat, l: nat)
    requires l < 4
    ensures (h * 4 + l) / 4 == h && (h * 4 + l) % 4 == l
  {
  }

  lemma GroupRoundTrip(b0: byte, b1: byte, b2: byte, last: bool)
    ensures DecodeQuad(EncodeGroup(b0, b1, b2), last) == Some([b0, b1, b2])
  {
    var x0, x1, x2, x3 := b0 / 4, (b0 % 4) * 16 + b1 / 16, (b1 % 16) * 4 + b2 / 64, b2 % 64;
    DigitRoundTrip(x0);
    DigitRoundTrip(x1);
    DigitRoundTrip(x2);
    DigitRoundTrip(x3);
    Recombine16(b0 % 4, b1 / 16);
    Recombine4(b1 % 16, b2 / 64);
    assert x0 * 4 + x1 / 16 == b0;
    assert (x1 % 16) * 16 + x2 / 4 == b1;
    assert (x2 % 4) * 64 + x3 == b2;
  }

  lemma Tail1RoundTrip(b0: byte)
    ensures DecodeQuad(EncodeTail1(b0), true) == Some([b0])
  {
    DigitRoundTrip(b0 / 4);
    DigitRoundTrip((b0 % 4) * 16);
  }

  lemma Tail2RoundTrip(b0: byte, b1: byte)
    ensures DecodeQuad(EncodeTail2(b0, b1), true) == Some([b0, b1])
  {
    DigitRoundTrip(b0 / 4);
    DigitRoundTrip((b0 % 4) * 16 + b1 / 16);
    DigitRoundTrip((b1 % 16) * 4);
  }

  lemma DecodeLastGroup(s: string)
    requires |s| == 4
    ensures Decode(s) == DecodeQuad(s, true)
  {
  }

  lemma DecodeLeadingGroup(g: string, rest: string, head: seq<byte>, tail: seq<byte>)
    requires |g| == 4 && |rest| >= 4
    requires DecodeQuad(g, false) == Some(head)
    requires Decode(rest) == Some(tail)
    ensures Decode(g + rest) == Some(head + tail)
  {
    var s := g + rest;
    assert s[..4] == g;
    assert s[4..] == rest;
  }

  lemma ShortRoundTrip(b: seq<byte>)
    requires 1 <= |b| <= 3
    ensures Decode(Encode(b)) == Some(b)
  {
    var s := Encode(b);
    DecodeLastGroup(s);
    if |b| == 1 {
      Tail1RoundTrip(b[0]);
      assert b == [b[0]];
    } else if |b| == 2 {
      Tail2RoundTrip(b[0], b[1]);
      assert b == [b[0], b[1]];
    } else {
      assert b[3..] == [];
      assert s == EncodeGroup(b[0], b[1], b[2]);
      GroupRoundTrip(b[0], b[1], b[2], true);
      assert b == [b[0], b[1], b[2]];
    }
  }

  /** Decoding recovers every octet sequence from its encoding. */
  lemma {:induction false} RoundTrip(b: seq<byte>)
    ensures Decode(Encode(b)) == Some(b)
    decreases |b|
  {
    if 1 <= |b| <= 3 {
      ShortRoundTrip(b);
    } else if |b| > 3 {
      RoundTrip(b[3..]);
      GroupRoundTrip(b[0], b[1], b[2], false);
      assert Encode(b) == EncodeGroup(b[0], b[1], b[2]) + Encode(b[3..]);
      DecodeLeadingGroup(EncodeGroup(b[0], b[1], b[2]), Encode(b[3..]), [b[0], b[1], b[2]], b[3..]);
      assert b == [b[0], b[1], b[2]] + b[3..];
    }
  }

  /** The encoding is injective: distinct octet sequences never share an encoding. */
  lemma Injective(a: seq<byte>, b: seq<byte>)
    ensures Encode(a) == Encode(b) ==> a == b
  {
    RoundTrip(a);
    RoundTrip(b);
  }

  /** No encoded text contains ':', the separator the symmetric framing relies on. */
  lemma NoColon(b: seq<byte>)
    ensures ':' !in Encode(b)
  {
  }
}

=== FILE: crypto.dfy ===
/**
  The encryption wrappers of the utilities module: the symmetric framing used
  for the cached session (AES-256-CBC, `base64(iv) ':' base64(ciphertext)`) and
  the public-key wrappers used for stashed items (RSA, base64 text). The block
  cipher and RSA are not modelled; they are supplied as functions, and the
  round-trip properties hold for every pair of functions that satisfies the
  cipher's correctness predicate.
*/
module Crypto {
  import opened Wrappers
  import Strings
  import Base64
  import Utf8

  /** The exception a wrapper raises, as a value. */
  datatype CryptoError =
    | EncryptRejected   // publicEncrypt threw: payload too long for the key's padding, or unusable key
    | MalformedFrame    // the framed text has no ':', so its ciphertext part is undefined
    | MalformedBase64   // a part is not base64 text
    | BadIv             // the initialisation vector is not 16 octets
    | DecryptRejected   // privateDecrypt or decipher.final threw: wrong key or bad padding
    | MalformedUtf8     // the decrypted octets are not UTF-8

  /** A PEM key pair as generated on first login. */
  datatype KeyPair = KeyPair(publicKey: string, privateKey: string)

  /**
    RSA with Node's default padding: `encrypt` fails (None) when the payload does
    not fit, `capacity` being the largest payload the padding admits for the key size.
  */
  datatype AsymCipher = AsymCipher(
    encrypt: (string, seq<byte>) -> Option<seq<byte>>,
    decrypt: (string, seq<byte>) -> Option<seq<byte>>,
    capacity: nat)

  /** What is assumed of RSA for a generated key pair: payloads up to capacity encrypt, and decrypt back. */
  ghost predicate CorrectFor(c: AsymCipher, kp: KeyPair)
  {
    && (forall m: seq<byte> :: c.encrypt(kp.publicKey, m).Some? <==> |m| <= c.capacity)
    && (forall m: seq<byte> :: c.encrypt(kp.publicKey, m).Some? ==>
          c.decrypt(kp.privateKey, c.encrypt(kp.publicKey, m).value) == Some(m))
  }

  /** AES-256-CBC under a key and a 16-octet initialisation vector. */
  datatype SymCipher = SymCipher(
    encrypt: (string, seq<byte>, seq<byte>) -> seq<byte>,
    decrypt: (string, seq<byte>, seq<byte>) -> Option<seq<byte>>)

  /** What is assumed of AES-CBC for a usable key: decryption under the same IV inverts encryption. */
  ghost predicate SymCorrectFor(c: SymCipher, key: string)
  {
    forall iv: seq<byte>, m: seq<byte> :: |iv| == 16 ==> c.decrypt(key, iv, c.encrypt(key, iv, m)) == Some(m)
  }

  /**
    encryptDataSymmetrical: the IV (16 random octets, drawn afresh per call) is
    a parameter. The text carries exactly one ':', before which stands the IV.
  */
  function EncryptSymmetrical(c: SymCipher, data: string, key: string, iv: seq<byte>): (r: string)
    requires |iv| == 16
    ensures |Strings.Split(r, ':')| == 2
    ensures Base64.Decode(Strings.Split(r, ':')[0]) == Some(iv)
  {
    var ivText := Base64.Encode(iv);
    var ctText := Base64.Encode(c.encrypt(key, iv, Utf8.Encode(data)));
    Base64.NoColon(iv);
    Base64.NoColon(c.encrypt(key, iv, Utf8.Encode(data)));
    Strings.SplitAfterPrefix(ivText, ':', ctText);
    Base64.RoundTrip(iv);
    ivText + ":" + ctText
  }

  /**
    decryptDataSymmetrical: the text is split on ':' and only the first two
    fields are used; each step that throws in the source is an error here.
  */
  function DecryptSymmetrical(c: SymCipher, framed: string, key: string): (r: Result<string, CryptoError>)
    ensures r.Ok? ==> |Strings.Split(framed, ':')| >= 2
    ensures (forall k :: 0 <= k < |framed| ==> framed[k] != ':') ==> r == Err(MalformedFrame)
  {
    var fields := Strings.Split(framed, ':');
    if |fields| < 2 then Err(MalformedFrame)
    else
      match (Base64.Decode(fields[0]), Base64.Decode(fields[1]))
      case (None, _) => Err(MalformedBase64)
      case (_, None) => Err(MalformedBase64)
      case (Some(iv), Some(ct)) =>
        if |iv| != 16 then Err(BadIv)
        else
          match c.decrypt(key, iv, ct)
          case None => Err(DecryptRejected)
          case Some(plain) =>
            match Utf8.Decode(plain)
            case None => Err(MalformedUtf8)
            case Some(text) => Ok(text)
  }

  /** The symmetric framing round trip: every framed text decrypts to the data it was made from. */
  lemma SymmetricRoundTrip(c: SymCipher, data: string, key: string, iv: seq<byte>)
    requires SymCorrectFor(c, key)
    requires |iv| == 16
    ensures DecryptSymmetrical(c, EncryptSymmetrical(c, data, key, iv), key) == Ok(data)
  {
    var plain := Utf8.Encode(data);
    var ct := c.encrypt(key, iv, plain);
    var ivText := Base64.Encode(iv);
    var ctText := Base64.Encode(ct);
    Base64.NoColon(iv);
    Base64.NoColon(ct);
    Strings.SplitAfterPrefix(ivText, ':', ctText);
    assert Strings.Split(ivText + ":" + ctText, ':') == [ivText, ctText];
    Base64.RoundTrip(iv);
    Base64.RoundTrip(ct);
    Utf8.RoundTrip(data);
  }

  /**
    A fresh IV per call: two encryptions of the same data under different IVs
    give different texts, and both decrypt to the data.
  */
  lemma FreshIvDistinct(c: SymCipher, data: string, key: string, iv1: seq<byte>, iv2: seq<byte>)
    requires SymCorrectFor(c, key)
    requires |iv1| == 16 && |iv2| == 16
    requires iv1 != iv2
    ensures EncryptSymmetrical(c, data, key, iv1) != EncryptSymmetrical(c, data, key, iv2)
    ensures DecryptSymmetrical(c, EncryptSymmetrical(c, data, key, iv1), key) == Ok(data)
    ensures DecryptSymmetrical(c, EncryptSymmetrical(c, data, key, iv2), key) == Ok(data)
  {
    SymmetricRoundTrip(c, data, key, iv1);
    SymmetricRoundTrip(c, data, key, iv2);
  }

  /** encryptStringWithPublicKey: UTF-8 octets, RSA-encrypted, as base64 text. */
  function EncryptWithPublicKey(c: AsymCipher, publicKey: string, text: string): (r: Result<string, CryptoError>)
    ensures r.Ok? ==> ':' !in r.value
    ensures r.Err? ==> r.error == EncryptRejected
  {
    match c.encrypt(publicKey, Utf8.Encode(text))
    case None => Err(EncryptRejected)
    case Some(ct) =>
      Base64.NoColon(ct);
      Ok(Base64.Encode(ct))
  }

  /** decryptStringWithPrivateKey: base64 text to octets, RSA-decrypted, read as UTF-8. */
  function DecryptWithPrivateKey(c: AsymCipher, privateKey: string, text: string): (r: Result<string, CryptoError>)
    ensures Base64.Decode(text).None? ==> r == Err(MalformedBase64)
  {
    match Base64.Decode(text)
    case None => Err(MalformedBase64)
    case Some(ct) =>
      match c.decrypt(privateKey, ct)
      case None => Err(DecryptRejected)
      case Some(plain) =>
        match Utf8.Decode(plain)
        case None => Err(MalformedUtf8)
        case Some(t) => Ok(t)
  }

  /**
    The public-key round trip: a text encrypts exactly when its UTF-8 form fits
    the key's capacity, and what it encrypts to decrypts back to it.
  */
  lemma PublicKeyRoundTrip(c: AsymCipher, kp: KeyPair, text: string)
    requires CorrectFor(c, kp)
    ensures EncryptWithPublicKey(c, kp.publicKey, text).Ok? <==> |Utf8.Encode(text)| <= c.capacity
    ensures EncryptWithPublicKey(c, kp.publicKey, text).Ok? ==>
              DecryptWithPrivateKey(c, kp.privateKey, EncryptWithPublicKey(c, kp.publicKey, text).value) == Ok(text)
  {
    var m := Utf8.Encode(text);
    if c.encrypt(kp.publicKey, m).Some? {
      Base64.RoundTrip(c.encrypt(kp.publicKey, m).value);
      Utf8.RoundTrip(text);
    }
  }
}

=== FILE: dispatch.dfy ===
/**
  The command dispatch of the utilities module: which handler the first
  command-line word selects, for a signed-in and for a signed-out user, and the
  usage text that advertises the commands.
*/
module Dispatch {
  import opened Wrappers

  /** The handler a command line reaches; Register and Login carry the second word, if any. */
  datatype Command =
    | ManageUsers
    | StashPeanut
    | ListPeanuts
    | Register(email: Option<string>)
    | Login(email: Option<string>)
    | Logout
    | About
    | ResetPassword
    | Help              // usage text only
    | HelpNotSignedIn   // usage text and the "not signed in" error

  /** The n-th command-line word, undefined when the line is shorter. */
  function Arg(args: seq<string>, n: nat): (a: Option<string>)
    ensures a.Some? <==> n < |args|
    ensures a.Some? ==> a.value == args[n]
  {
    if n < |args| then Some(args[n]) else None
  }

  /** stateMachine: the switch on the first word, chosen by whether a user is signed in. */
  function Route(signedIn: bool, args: seq<string>): (c: Command)
    ensures !signedIn ==> c != StashPeanut && c != ListPeanuts && c != ManageUsers
    ensures !signedIn ==> c != ResetPassword && c != Logout && c != Help
    ensures signedIn ==> c != HelpNotSignedIn
  {
    var action := Arg(args, 0);
    var email := Arg(args, 1);
    if signedIn then
      match action
      case Some("users") | Some("u") => ManageUsers
      case Some("stash") | Some("s") => StashPeanut
      case Some("list") | Some("l") => ListPeanuts
      case Some("register") | Some("r") => Register(email)
      case Some("login") | Some("i") => Login(email)
      case Some("logout") | Some("o") => Logout
      case Some("about") | Some("a") => About
      case Some("reset") | Some("rs") => ResetPassword
      case _ => Help
    else
      match action
      case Some("register") | Some("r") => Register(email)
      case Some("login") | Some("i") => Login(email)
      case Some("about") | Some("a") => About
      case _ => HelpNotSignedIn
  }

  /** The words that select a handler for a signed-in user. */
  predicate SignedInWord(w: string)
  {
    w in {"users", "u", "stash", "s", "list", "l", "register", "r", "login", "i",
          "logout", "o", "about", "a", "reset", "rs"}
  }

  /** Signed-in dispatch: each documented word reaches its handler, anything else shows help. */
  lemma SignedInRouting(w: string, rest: seq<string>)
    ensures Route(true, [w] + rest) == ManageUsers <==> w == "users" || w == "u"
    ensures Route(true, [w] + rest) == StashPeanut <==> w == "stash" || w == "s"
    ensures Route(true, [w] + rest) == ListPeanuts <==> w == "list" || w == "l"
    ensures Route(true, [w] + rest).Register? <==> w == "register" || w == "r"
    ensures Route(true, [w] + rest).Login? <==> w == "login" || w == "i"
    ensures Route(true, [w] + rest) == Logout <==> w == "logout" || w == "o"
    ensures Route(true, [w] + rest) == About <==> w == "about" || w == "a"
    ensures Route(true, [w] + rest) == ResetPassword <==> w == "reset" || w == "rs"
    ensures Route(true, [w] + rest) == Help <==> !SignedInWord(w)
    ensures Route(true, [w] + rest).Register? || Route(true, [w] + rest).Login? ==>
              Route(true, [w] + rest).email == Arg(rest, 0)
  {
    assert ([w] + rest)[0] == w;
    assert |rest| > 0 ==> ([w] + rest)[1] == rest[0];
  }

  /** With no words at all, a signed-in user sees help. */
  lemma EmptyLineShowsHelp()
    ensures Route(true, []) == Help
    ensures Route(false, []) == HelpNotSignedIn
  {
  }

  /**
    Signed-out dispatch: only register, login and about run; everything else is
    help plus the error, so no handler that needs a user is ever reached.
  */
  lemma SignedOutRouting(args: seq<string>)
    ensures Route(false, args).Register? || Route(false, args).Login?
            || Route(false, args) == About || Route(false, args) == HelpNotSignedIn
    ensures Route(false, args) != StashPeanut && Route(false, args) != ListPeanuts
    ensures Route(false, args) != ManageUsers && Route(false, args) != ResetPassword
    ensures Route(false, args) != Logout
    ensures Route(false, args) == HelpNotSignedIn <==>
              |args| == 0 || args[0] !in {"register", "r", "login", "i", "about", "a"}
  {
  }

  /** One line of the usage text: a command word, its advertised short form, and its topic. */
  datatype HelpLine = HelpLine(name: string, short: string)

  /** The commands the usage text advertises, in its order. */
  const HelpLines: seq<HelpLine> := [
    HelpLine("register", "rs"), HelpLine("login", "i"), HelpLine("logout", "o"),
    HelpLine("reset", "r"), HelpLine("users", "u"), HelpLine("server", "sv"),
    HelpLine("stash", "s"), HelpLine("pop", "p"), HelpLine("list", "l"), HelpLine("about", "a")]

  /** A help line is honoured when its word reaches a handler and its short form reaches the same one. */
  predicate Honoured(h: HelpLine)
  {
    Route(true, [h.name]) != Help && Route(true, [h.short]) == Route(true, [h.name])
  }

  /**
    The usage text and the dispatch disagree: register and reset have their short
    forms swapped, and neither server nor pop is dispatched at all.
  */
  lemma HelpDispatchMismatch()
    ensures forall k :: 0 <= k < |HelpLines| ==>
              (Honoured(HelpLines[k]) <==> HelpLines[k].name in {"login", "logout", "users", "stash", "list", "about"})
    ensures Route(true, ["rs"]) == ResetPassword && Route(true, ["r"]) == Register(None)
    ensures Route(true, ["pop"]) == Help && Route(true, ["p"]) == Help
  {
  }
}

=== FILE: email.dfy ===
/**
  The email validator: the regular expression `^[^\s@]+@[^\s@]+\.[^\s@]+$`,
  computed by a direct scan and proved equal to the pattern's meaning.
*/
module Email {
  import Strings

  /** The characters JavaScript's `\s` class matches. */
  predicate IsWhitespace(c: char)
  {
    var v := c as int;
    || (0x09 <= v <= 0x0D) || v == 0x20 || v == 0xA0 || v == 0x1680
    || (0x2000 <= v <= 0x200A) || v == 0x2028 || v == 0x2029 || v == 0x202F
    || v == 0x205F || v == 0x3000 || v == 0xFEFF
  }

  /** A character of the class `[^\s@]`. */
  predicate Plain(c: char) { !IsWhitespace(c) && c != '@' }

  predicate AllPlain(s: string) { forall k :: 0 <= k < |s| ==> Plain(s[k]) }

  /**
    What the pattern accepts: a non-empty plain local part, '@', then a plain
    domain with a '.' that has at least one plain character on either side.
  */
  ghost predicate MatchesPattern(s: string)
  {
    exists at: nat, dot: nat ::
      && 0 < at && at + 1 < dot && dot + 1 < |s|
      && s[at] == '@' && s[dot] == '.'
      && AllPlain(s[..at]) && AllPlain(s[at + 1..dot]) && AllPlain(s[dot + 1..])
  }

  /** The domain check: a '.' that is neither the first nor the last character. */
  predicate HasInnerDot(d: string)
  {
    |d| >= 3 && '.' in d[1..|d| - 1]
  }

  /** isValidEmail, as a left-to-right scan. */
  predicate IsValidEmail(s: string)
  {
    && '@' in s
    && var at := Strings.FirstIndex(s, '@');
    && at > 0
    && AllPlain(s[..at])
    && AllPlain(s[at + 1..])
    && HasInnerDot(s[at + 1..])
  }

  lemma PlainSplit(d: string, k: nat)
    requires k < |d| && AllPlain(d)
    ensures AllPlain(d[..k]) && AllPlain(d[k + 1..])
  {
    assert forall j :: 0 <= j < k ==> d[..k][j] == d[j];
    var rest := d[k + 1..];
    assert forall j :: 0 <= j < |rest| ==> rest[j] == d[k + 1 + j];
  }

  lemma ScanImpliesPattern(s: string)
    requires IsValidEmail(s)
    ensures MatchesPattern(s)
  {
    var at := Strings.FirstIndex(s, '@');
    var d := s[at + 1..];
    var inner := d[1..|d| - 1];
    var j := Strings.FirstIndex(inner, '.');
    var dot := at + 2 + j;
    assert s[dot] == '.';
    PlainSplit(d, j + 1);
    assert s[at + 1..dot] == d[..j + 1];
    assert s[dot + 1..] == d[j + 2..];
  }

  lemma PatternImpliesScan(s: string, at: nat, dot: nat)
    requires 0 < at && at + 1 < dot && dot + 1 < |s|
    requires s[at] == '@' && s[dot] == '.'
    requires AllPlain(s[..at]) && AllPlain(s[at + 1..dot]) && AllPlain(s[dot + 1..])
    ensures IsValidEmail(s)
  {
    assert forall k :: 0 <= k < at ==> s[..at][k] == s[k];
    var first := Strings.FirstIndex(s, '@');
    assert first == at;
    var d := s[at + 1..];
    assert d == s[at + 1..dot] + ['.'] + s[dot + 1..];
    assert AllPlain(d) by {
      forall k | 0 <= k < |d|
        ensures Plain(d[k])
      {
        if k < dot - at - 1 {
          assert d[k] == s[at + 1..dot][k];
        } else if k > dot - at - 1 {
          assert d[k] == s[dot + 1..][k - (dot - at)];
        }
      }
    }
    var inner := d[1..|d| - 1];
    assert inner[dot - at - 2] == '.';
  }

  /** The scan accepts exactly the strings the regular expression matches. */
  lemma ValidIffPattern(s: string)
    ensures IsValidEmail(s) <==> MatchesPattern(s)
  {
    if IsValidEmail(s) {
      ScanImpliesPattern(s);
    }
    if MatchesPattern(s) {
      var at: nat, dot: nat :|
        && 0 < at && at + 1 < dot && dot + 1 < |s|
        && s[at] == '@' && s[dot] == '.'
        && AllPlain(s[..at]) && AllPlain(s[at + 1..dot]) && AllPlain(s[dot + 1..]);
      PatternImpliesScan(s, at, dot);
    }
  }

  /** Non-empty plain local part, host and top-level label joined by '@' and '.' make a valid address. */
  lemma ValidFromParts(local: string, host: string, top: string)
    requires |local| > 0 && |host| > 0 && |top| > 0
    requires AllPlain(local) && AllPlain(host) && AllPlain(top)
    ensures IsValidEmail(local + "@" + host + "." + top)
  {
    var s := local + "@" + host + "." + top;
    var at, dot := |local|, |local| + 1 + |host|;
    assert s[..at] == local;
    assert s[at + 1..dot] == host;
    assert s[dot + 1..] == top;
    PatternImpliesScan(s, at, dot);
  }

  lemma AllPlainJoin(a: string, c: char, b: string)
    requires AllPlain(a) && Plain(c) && AllPlain(b)
    ensures AllPlain(a + [c] + b)
  {
    var s := a + [c] + b;
    assert forall k :: |a| < k < |s| ==> s[k] == b[k - |a| - 1];
  }

  /** A valid address has exactly one '@' and no whitespace. */
  lemma ValidShape(s: string)
    requires IsValidEmail(s)
    ensures forall k :: 0 <= k < |s| ==> !IsWhitespace(s[k])
    ensures forall k :: 0 <= k < |s| && s[k] == '@' ==> k == Strings.FirstIndex(s, '@')
  {
    var at := Strings.FirstIndex(s, '@');
    forall k | 0 <= k < |s|
      ensures !IsWhitespace(s[k])
      ensures s[k] == '@' ==> k == at
    {
      if k < at {
        assert s[k] == s[..at][k];
      } else if k > at {
        assert s[k] == s[at + 1..][k - at - 1];
      }
    }
  }
}

=== FILE: prompts.dfy ===
/**
  Selection-prompt options and the tagged option values the handlers decode:
  a four-character tag ("DAT:", "MNG:", "ADD:", "NXT:", "END:", "CNL:"), and for
  data options a position and a payload, `"DAT:" + index + ":" + payload`.
*/
module Prompts {
  import opened Wrappers
  import Strings

  /** A choice in a selection prompt: what is shown and the value the prompt returns. */
  datatype MenuOption = MenuOption(caption: string, value: string)

  /** `s.startsWith(prefix)`, and `value.substring(0, 4) == tag` for a four-character tag. */
  predicate HasPrefix(s: string, prefix: string)
  {
    |prefix| <= |s| && s[..|prefix|] == prefix
  }

  /** `value.slice(4)`: the text after the four-character tag. */
  function Untag(v: string): (r: string)
    ensures |v| >= 4 ==> v == v[..4] + r
    ensures |v| < 4 ==> r == ""
  {
    if |v| >= 4 then v[4..] else ""
  }

  /** The value of a data option: its position in the list it was built from, and its payload. */
  function IndexedValue(i: int, payload: string): string
  {
    "DAT:" + Strings.IntToString(i) + ":" + payload
  }

  /** A data option's value carries the "DAT:" tag, so it never equals a control option's value. */
  lemma IndexedValueTag(i: int, payload: string)
    ensures |IndexedValue(i, payload)| > 4 && IndexedValue(i, payload)[..4] == "DAT:"
    ensures IndexedValue(i, payload)[0] == 'D'
  {
  }

  /** A decoded data option: the index text and the second field, undefined when there is none. */
  datatype Decoded = Decoded(index: string, payload: Option<string>)

  /** `const [index, payload] = value.slice(4).split(':')`. */
  function DecodeIndexed(v: string): (d: Decoded)
    ensures d.payload.Some? ==> ':' !in d.payload.value
  {
    var fields := Strings.Split(Untag(v), ':');
    Decoded(fields[0], if |fields| >= 2 then Some(fields[1]) else None)
  }

  lemma UntagIndexed(i: int, payload: string)
    ensures Untag(IndexedValue(i, payload)) == Strings.IntToString(i) + [':'] + payload
  {
    var rest := Strings.IntToString(i) + [':'] + payload;
    assert IndexedValue(i, payload) == "DAT:" + rest;
  }

  /** The fields of a data option's untagged value: its index, then the payload's own fields. */
  lemma SplitIndexed(i: int, payload: string)
    ensures Strings.Split(Untag(IndexedValue(i, payload)), ':') == [Strings.IntToString(i)] + Strings.Split(payload, ':')
  {
    UntagIndexed(i, payload);
    Strings.SplitAfterPrefix(Strings.IntToString(i), ':', payload);
  }

  /**
    Decoding a data option returns its index exactly, and returns its payload
    exactly when the payload has no ':'; otherwise only the text before the first ':'.
  */
  lemma DecodeIndexedValue(i: int, payload: string)
    ensures DecodeIndexed(IndexedValue(i, payload)).index == Strings.IntToString(i)
    ensures DecodeIndexed(IndexedValue(i, payload)).payload == Some(Strings.Split(payload, ':')[0])
    ensures DecodeIndexed(IndexedValue(i, payload)).payload == Some(payload) <==> ':' !in payload
    ensures ':' in payload ==>
              DecodeIndexed(IndexedValue(i, payload)).payload == Some(payload[..Strings.FirstIndex(payload, ':')])
  {
    var fields := Strings.Split(Untag(IndexedValue(i, payload)), ':');
    var tail := Strings.Split(payload, ':');
    SplitIndexed(i, payload);
    assert fields[0] == Strings.IntToString(i);
    assert fields[1] == tail[0];
    Strings.SplitHead(payload, ':');
  }

  /** The index of a decoded data option reads back as the position it was built from, when that is not negative. */
  lemma DecodeIndexedPosition(i: int, payload: string)
    ensures i >= 0 ==> Strings.ParseIndex(DecodeIndexed(IndexedValue(i, payload)).index) == Some(i)
    ensures i < 0 ==> Strings.ParseIndex(DecodeIndexed(IndexedValue(i, payload)).index).None?
  {
    DecodeIndexedValue(i, payload);
    Strings.ParseIndexOfInt(i);
  }
}

=== FILE: stash.dfy ===
/**
  The stash logic of the stash module: the category menu and its decoding, the
  length gate and the record a new item becomes, the import of the pending
  inbox, the latest-first listing with its pagination and item decoding, delete
  of a listed item, and pop. The store is the push-keyed collections of Store.
*/
module Stash {
  import opened Wrappers
  import Strings
  import Utf8
  import Crypto
  import Store
  import opened Prompts

  /** A stashed item: ciphertext under the owner's public key, its author, and a category label. */
  datatype Peanut = Peanut(data: string, userEmail: string, userId: string, category: string)

  /** An item another user shared, waiting in the inbox: ciphertext under this user's public key. */
  datatype PendingPeanut = PendingPeanut(data: string, email: string, userId: string)

  /** A category record; items refer to categories by name only. */
  datatype Category = Category(name: string)

  /** The signed-in user with the key pair loaded for the session. */
  datatype User = User(uid: string, email: string, keys: Crypto.KeyPair)

  /** One user's collections. */
  datatype UserData = UserData(
    categories: Store.PushList<Category>,
    stash: Store.PushList<Peanut>,
    pending: Store.PushList<PendingPeanut>)

  const DefaultCategory := "default"
  const ImportedCategory := "imported"

  // ---------------------------------------------------------------- categories

  /** The default option carries index -1, which names no loaded category. */
  const DefaultOption := MenuOption(DefaultCategory, IndexedValue(-1, DefaultCategory))
  const ManageOption := MenuOption("#Manage#", "MNG:manage")
  const AddCategoryOption := MenuOption("#Add#", "ADD:add")

  function Names(loaded: seq<Store.Entry<Category>>): (r: seq<string>)
    ensures |r| == |loaded|
    ensures forall i :: 0 <= i < |loaded| ==> r[i] == loaded[i].val.name
  {
    seq(|loaded|, i requires 0 <= i < |loaded| => loaded[i].val.name)
  }

  /** The option for the category loaded at position i. */
  function CategoryOption(names: seq<string>, i: nat): MenuOption
    requires i < |names|
  {
    MenuOption(names[i], IndexedValue(i, names[i]))
  }

  /** The loaded categories, latest first, each carrying its load-order index. */
  function UserCategoryOptions(names: seq<string>): (r: seq<MenuOption>)
    ensures |r| == |names|
    ensures forall j :: 0 <= j < |names| ==> r[j] == CategoryOption(names, |names| - 1 - j)
  {
    seq(|names|, j requires 0 <= j < |names| => CategoryOption(names, |names| - 1 - j))
  }

  /** The category menu: default first, the loaded categories latest first, manage last. */
  function CategoryOptions(names: seq<string>): (r: seq<MenuOption>)
    ensures |r| == |names| + 2
    ensures r[0] == DefaultOption && r[|names| + 1] == ManageOption
    ensures forall j :: 1 <= j <= |names| ==> r[j] == CategoryOption(names, |names| - j)
  {
    [DefaultOption] + UserCategoryOptions(names) + [ManageOption]
  }

  /**
    The management menu: the loaded categories latest first, then "#Add#"
    options. The add option is appended to the same list on every visit to
    "#Manage#" and never taken off, so after `manageVisits` earlier visits the
    menu carries manageVisits + 1 of them.
  */
  function ManageOptions(names: seq<string>, manageVisits: nat): (r: seq<MenuOption>)
    ensures |r| == |names| + manageVisits + 1
    ensures forall j :: 0 <= j < |names| ==> r[j] == CategoryOption(names, |names| - 1 - j)
    ensures forall j :: |names| <= j < |r| ==> r[j] == AddCategoryOption
  {
    UserCategoryOptions(names) + seq(manageVisits + 1, _ => AddCategoryOption)
  }

  /** The text a decoded option yields; the "undefined" case cannot arise from built options. */
  function PayloadText(d: Decoded): string
  {
    Strings.StringOf(d.payload)
  }

  /** The default option's value is the literal "DAT:-1:default". */
  lemma DefaultOptionValue()
    ensures DefaultOption.value == "DAT:-1:default"
  {
    assert Strings.DigitChar(1) == '1';
    assert Strings.NatToString(1) == "1";
    assert Strings.IntToString(-1) == "-1";
  }

  lemma UnindexedOptionDecodes(name: string)
    requires ':' !in name
    ensures PayloadText(DecodeIndexed(IndexedValue(-1, name))) == name
    ensures Strings.ParseIndex(DecodeIndexed(IndexedValue(-1, name)).index).None?
  {
    DecodeIndexedValue(-1, name);
    DecodeIndexedPosition(-1, name);
  }

  /** The default option decodes to "default" with an index that names no array element. */
  lemma DefaultOptionDecodes()
    ensures PayloadText(DecodeIndexed(DefaultOption.value)) == DefaultCategory
    ensures Strings.ParseIndex(DecodeIndexed(DefaultOption.value).index).None?
  {
    UnindexedOptionDecodes(DefaultCategory);
  }

  /**
    A loaded category's option, at menu position j, decodes to its load-order
    index and to its name cut at the first ':' (the whole name when it has none).
  */
  lemma CategoryOptionDecodes(names: seq<string>, j: nat)
    requires 0 < j <= |names|
    ensures Strings.ParseIndex(DecodeIndexed(CategoryOptions(names)[j].value).index) == Some(|names| - j)
    ensures PayloadText(DecodeIndexed(CategoryOptions(names)[j].value)) == Strings.Split(names[|names| - j], ':')[0]
    ensures ':' !in names[|names| - j] ==> PayloadText(DecodeIndexed(CategoryOptions(names)[j].value)) == names[|names| - j]
    ensures CategoryOptions(names)[j].caption == names[|names| - j]
  {
    var i := |names| - j;
    assert CategoryOptions(names)[j].value == IndexedValue(i, names[i]);
    DecodeIndexedValue(i, names[i]);
    DecodeIndexedPosition(i, names[i]);
  }

  datatype ManageAction = SelectAction | DeleteAction

  /**
    What the category prompts returned: the position picked in the category
    menu, the position picked in the management menu, the action on a managed
    category, and the name typed after "#Add#".
  */
  datatype CategoryAnswer = CategoryAnswer(first: nat, second: nat, action: ManageAction, newName: string)

  /** The answer's positions lie within the menus it picks from; `second` is only read after "#Manage#". */
  predicate AnswerFits(names: seq<string>, manageVisits: nat, a: CategoryAnswer)
  {
    && a.first < |names| + 2
    && a.second < |names| + manageVisits + 1
  }

  /**
    The category step of a stash round: returns the selected category and the
    category collection after any add or delete. `loaded` is the snapshot read
    when the command started; it is not refreshed between rounds.
  */
  function SelectCategory(loaded: seq<Store.Entry<Category>>, cats: Store.PushList<Category>, manageVisits: nat, a: CategoryAnswer): (r: (string, Store.PushList<Category>))
    requires AnswerFits(Names(loaded), manageVisits, a)
    ensures a.first <= |loaded| ==> r.1 == cats
  {
    var v1 := CategoryOptions(Names(loaded))[a.first].value;
    assert a.first <= |loaded| ==> v1 != ManageOption.value by {
      if a.first == 0 {
        DataValueIsNotControl(-1, DefaultCategory);
      } else if a.first <= |loaded| {
        DataValueIsNotControl(|loaded| - a.first, Names(loaded)[|loaded| - a.first]);
      }
    }
    if v1 == ManageOption.value then ManageCategory(loaded, cats, manageVisits, a)
    else (PayloadText(DecodeIndexed(v1)), cats)
  }

  /** The "#Manage#" branch: add a category, or select or delete a loaded one. */
  function ManageCategory(loaded: seq<Store.Entry<Category>>, cats: Store.PushList<Category>, manageVisits: nat, a: CategoryAnswer): (r: (string, Store.PushList<Category>))
    requires AnswerFits(Names(loaded), manageVisits, a)
    ensures a.second >= |loaded| ==> r == (a.newName, Store.Push(cats, Category(a.newName)))
  {
    var v2 := ManageOptions(Names(loaded), manageVisits)[a.second].value;
    if v2 == AddCategoryOption.value then (a.newName, Store.Push(cats, Category(a.newName)))
    else ManageLoaded(loaded, cats, DecodeIndexed(v2), a.action)
  }

  /** Select or delete the loaded category a decoded management option names. */
  function ManageLoaded(loaded: seq<Store.Entry<Category>>, cats: Store.PushList<Category>, d: Decoded, action: ManageAction): (r: (string, Store.PushList<Category>))
    ensures action == SelectAction ==> r.1 == cats
    ensures action == DeleteAction ==> r.0 == DefaultCategory && r.1.clock == cats.clock && |r.1.entries| <= |cats.entries|
    ensures Strings.ParseIndex(d.index).None? ==> r.1 == cats
    ensures Strings.ParseIndex(d.index).Some? && Strings.ParseIndex(d.index).value >= |loaded| ==> r.1 == cats
  {
    match action
    case SelectAction => (PayloadText(d), cats)
    case DeleteAction =>
      match Strings.ParseIndex(d.index)
      case Some(i) => (DefaultCategory, if i < |loaded| then Store.Remove(cats, loaded[i].key) else cats)
      case None => (DefaultCategory, cats)
  }

  lemma DataValueIsNotControl(i: int, payload: string)
    ensures IndexedValue(i, payload) != ManageOption.value
    ensures IndexedValue(i, payload) != AddCategoryOption.value
  {
    IndexedValueTag(i, payload);
  }

  lemma SelectDefault(loaded: seq<Store.Entry<Category>>, cats: Store.PushList<Category>, manageVisits: nat, a: CategoryAnswer)
    requires AnswerFits(Names(loaded), manageVisits, a) && a.first == 0
    ensures SelectCategory(loaded, cats, manageVisits, a) == (DefaultCategory, cats)
  {
    assert CategoryOptions(Names(loaded))[a.first] == DefaultOption;
    DefaultOptionDecodes();
    DataValueIsNotControl(-1, DefaultCategory);
  }

  lemma SelectListed(loaded: seq<Store.Entry<Category>>, cats: Store.PushList<Category>, manageVisits: nat, a: CategoryAnswer)
    requires AnswerFits(Names(loaded), manageVisits, a) && 0 < a.first <= |loaded|
    ensures SelectCategory(loaded, cats, manageVisits, a) == (Strings.Split(loaded[|loaded| - a.first].val.name, ':')[0], cats)
  {
    var names := Names(loaded);
    var i := |names| - a.first;
    var v1 := CategoryOptions(names)[a.first].value;
    assert v1 != ManageOption.value by {
      assert v1 == IndexedValue(i, names[i]);
      DataValueIsNotControl(i, names[i]);
    }
    assert PayloadText(DecodeIndexed(v1)) == Strings.Split(loaded[i].val.name, ':')[0] by {
      CategoryOptionDecodes(names, a.first);
    }
  }

  /** On "#Manage#", a loaded category's option yields the management answer for that record. */
  lemma ManagedDecodes(loaded: seq<Store.Entry<Category>>, cats: Store.PushList<Category>, manageVisits: nat, a: CategoryAnswer)
    requires AnswerFits(Names(loaded), manageVisits, a) && a.first == |loaded| + 1 && a.second < |loaded|
    ensures var i := |loaded| - 1 - a.second;
            && SelectCategory(loaded, cats, manageVisits, a) == ManageLoaded(loaded, cats, DecodeIndexed(IndexedValue(i, loaded[i].val.name)), a.action)
            && PayloadText(DecodeIndexed(IndexedValue(i, loaded[i].val.name))) == Strings.Split(loaded[i].val.name, ':')[0]
            && Strings.ParseIndex(DecodeIndexed(IndexedValue(i, loaded[i].val.name)).index) == Some(i)
  {
    var names := Names(loaded);
    var i := |loaded| - 1 - a.second;
    var v2 := ManageOptions(names, manageVisits)[a.second].value;
    assert SelectCategory(loaded, cats, manageVisits, a) == ManageCategory(loaded, cats, manageVisits, a) by {
      assert CategoryOptions(names)[a.first] == ManageOption;
    }
    assert v2 == IndexedValue(i, names[i]) && v2 != AddCategoryOption.value by {
      DataValueIsNotControl(i, names[i]);
    }
    DecodeIndexedValue(i, names[i]);
    DecodeIndexedPosition(i, names[i]);
  }

  lemma SelectManaged(loaded: seq<Store.Entry<Category>>, cats: Store.PushList<Category>, manageVisits: nat, a: CategoryAnswer)
    requires AnswerFits(Names(loaded), manageVisits, a) && a.first == |loaded| + 1 && a.second < |loaded|
    requires a.action == SelectAction
    ensures SelectCategory(loaded, cats, manageVisits, a) == (Strings.Split(loaded[|loaded| - 1 - a.second].val.name, ':')[0], cats)
  {
    ManagedDecodes(loaded, cats, manageVisits, a);
  }

  lemma DeleteManaged(loaded: seq<Store.Entry<Category>>, cats: Store.PushList<Category>, manageVisits: nat, a: CategoryAnswer)
    requires AnswerFits(Names(loaded), manageVisits, a) && a.first == |loaded| + 1 && a.second < |loaded|
    requires a.action == DeleteAction
    ensures SelectCategory(loaded, cats, manageVisits, a) == (DefaultCategory, Store.Remove(cats, loaded[|loaded| - 1 - a.second].key))
  {
    var i := |loaded| - 1 - a.second;
    var d := DecodeIndexed(IndexedValue(i, loaded[i].val.name));
    ManagedDecodes(loaded, cats, manageVisits, a);
    DeleteLoaded(loaded, cats, d, i);
  }

  lemma DeleteLoaded(loaded: seq<Store.Entry<Category>>, cats: Store.PushList<Category>, d: Decoded, i: nat)
    requires Strings.ParseIndex(d.index) == Some(i) && i < |loaded|
    ensures ManageLoaded(loaded, cats, d, DeleteAction) == (DefaultCategory, Store.Remove(cats, loaded[i].key))
  {
  }

  /**
    What the category step does, case by case: a direct pick selects the
    category (cut at ':') and writes nothing; "#Add#" selects the typed name and
    pushes it; a managed pick either selects it or deletes exactly that record
    (by its load-order index) and falls back to "default".
  */
  lemma SelectCategoryMeaning(loaded: seq<Store.Entry<Category>>, cats: Store.PushList<Category>, manageVisits: nat, a: CategoryAnswer)
    requires AnswerFits(Names(loaded), manageVisits, a)
    ensures a.first == 0 ==> SelectCategory(loaded, cats, manageVisits, a) == (DefaultCategory, cats)
    ensures 0 < a.first <= |loaded| ==>
              SelectCategory(loaded, cats, manageVisits, a) == (Strings.Split(loaded[|loaded| - a.first].val.name, ':')[0], cats)
    ensures a.first == |loaded| + 1 && a.second >= |loaded| ==>
              SelectCategory(loaded, cats, manageVisits, a) == (a.newName, Store.Push(cats, Category(a.newName)))
    ensures a.first == |loaded| + 1 && a.second < |loaded| && a.action == SelectAction ==>
              SelectCategory(loaded, cats, manageVisits, a) == (Strings.Split(loaded[|loaded| - 1 - a.second].val.name, ':')[0], cats)
    ensures a.first == |loaded| + 1 && a.second < |loaded| && a.action == DeleteAction ==>
              SelectCategory(loaded, cats, manageVisits, a) == (DefaultCategory, Store.Remove(cats, loaded[|loaded| - 1 - a.second].key))
  {
    if a.first == 0 {
      SelectDefault(loaded, cats, manageVisits, a);
    } else if a.first <= |loaded| {
      SelectListed(loaded, cats, manageVisits, a);
    } else if a.second < |loaded| && a.action == SelectAction {
      SelectManaged(loaded, cats, manageVisits, a);
    } else if a.second < |loaded| {
      DeleteManaged(loaded, cats, manageVisits, a);
    }
  }

  // ---------------------------------------------------------------- stashing

  datatype StashError = TooLong | EncryptFailed

  /**
    The length gate and the new record: text longer than `maxLength` (counted as
    `data.length` counts) is rejected, as is text the public key cannot encrypt;
    otherwise the record is pushed as the collection's newest child.
  */
  function StashPeanut(c: Crypto.AsymCipher, user: User, maxLength: nat, text: string, category: string, stash: Store.PushList<Peanut>): (r: Result<Store.PushList<Peanut>, StashError>)
    ensures Strings.Utf16Length(text) > maxLength ==> r == Err(TooLong)
    ensures r.Ok? ==> Store.Valid(stash) ==> Store.Valid(r.value)
    ensures r.Ok? ==> |r.value.entries| == |stash.entries| + 1 && r.value.entries[..|stash.entries|] == stash.entries
    ensures r.Ok? ==> var p := r.value.entries[|stash.entries|].val;
              p.userEmail == user.email && p.userId == user.uid && p.category == category
              && Crypto.EncryptWithPublicKey(c, user.keys.publicKey, text) == Ok(p.data)
  {
    if Strings.Utf16Length(text) > maxLength then Err(TooLong)
    else
      match Crypto.EncryptWithPublicKey(c, user.keys.publicKey, text)
      case Err(_) => Err(EncryptFailed)
      case Ok(ct) => Ok(Store.Push(stash, Peanut(ct, user.email, user.uid, category)))
  }

  /**
    Under a correct cipher, stashing succeeds exactly when the text passes the
    length gate and its UTF-8 form fits the key, and the stored ciphertext
    decrypts to the text under the user's private key.
  */
  lemma StashGate(c: Crypto.AsymCipher, user: User, maxLength: nat, text: string, category: string, stash: Store.PushList<Peanut>)
    requires Crypto.CorrectFor(c, user.keys)
    ensures StashPeanut(c, user, maxLength, text, category, stash).Ok? <==>
              Strings.Utf16Length(text) <= maxLength && |Utf8.Encode(text)| <= c.capacity
    ensures StashPeanut(c, user, maxLength, text, category, stash).Ok? ==>
              Crypto.DecryptWithPrivateKey(c, user.keys.privateKey,
                StashPeanut(c, user, maxLength, text, category, stash).value.entries[|stash.entries|].val.data) == Ok(text)
    ensures Strings.Utf16Length(text) <= maxLength && |Utf8.Encode(text)| > c.capacity ==>
              StashPeanut(c, user, maxLength, text, category, stash) == Err(EncryptFailed)
  {
    Crypto.PublicKeyRoundTrip(c, user.keys, text);
  }

  /**
    The length gate alone does not make text encryptable: with a 2048-character
    limit and a 214-octet payload capacity (a 2048-bit key under OAEP), 215
    ASCII characters pass the gate and still fail.
  */
  lemma GateAdmitsUnencryptable(c: Crypto.AsymCipher, user: User, stash: Store.PushList<Peanut>)
    requires Crypto.CorrectFor(c, user.keys) && c.capacity == 214
    ensures var text := seq(215, _ => 'a');
            Strings.Utf16Length(text) <= 2048
            && StashPeanut(c, user, 2048, text, DefaultCategory, stash) == Err(EncryptFailed)
  {
    var text := seq(215, _ => 'a');
    Utf8.AsciiLength(text);
    StashGate(c, user, 2048, text, DefaultCategory, stash);
  }

  /**
    One round of the stash loop: the category step (which may add or delete a
    category), then the length gate and the push. The category write happens
    before the gate, so it survives a rejected text.
  */
  function StashRound(c: Crypto.AsymCipher, user: User, maxLength: nat, loaded: seq<Store.Entry<Category>>,
                      d: UserData, manageVisits: nat, a: CategoryAnswer, text: string): (r: (UserData, Option<StashError>))
    requires AnswerFits(Names(loaded), manageVisits, a)
    ensures r.0.categories == SelectCategory(loaded, d.categories, manageVisits, a).1
    ensures r.0.pending == d.pending
    ensures r.1.Some? ==> r.0.stash == d.stash
    ensures r.1.None? ==> |r.0.stash.entries| == |d.stash.entries| + 1
    ensures r.0.stash.entries[..|d.stash.entries|] == d.stash.entries
  {
    var (category, cats) := SelectCategory(loaded, d.categories, manageVisits, a);
    match StashPeanut(c, user, maxLength, text, category, d.stash)
    case Err(e) => (d.(categories := cats), Some(e))
    case Ok(s) => (d.(categories := cats, stash := s), None)
  }

  /**
    Deleting a category removes only that category record; no stashed item, and
    so no item's category label, changes.
  */
  lemma CategoryDeleteIsolation(c: Crypto.AsymCipher, user: User, maxLength: nat, loaded: seq<Store.Entry<Category>>,
                                d: UserData, manageVisits: nat, a: CategoryAnswer, text: string)
    requires AnswerFits(Names(loaded), manageVisits, a)
    requires a.first == |loaded| + 1 && a.second < |loaded| && a.action == DeleteAction
    requires Store.Valid(d.categories)
    ensures var r := StashRound(c, user, maxLength, loaded, d, manageVisits, a, text);
            && r.0.categories == Store.Remove(d.categories, loaded[|loaded| - 1 - a.second].key)
            && (forall i :: 0 <= i < |d.stash.entries| ==> r.0.stash.entries[i] == d.stash.entries[i])
            && (r.1.None? ==> r.0.stash.entries[|d.stash.entries|].val.category == DefaultCategory)
  {
    SelectCategoryMeaning(loaded, d.categories, manageVisits, a);
    var r := StashRound(c, user, maxLength, loaded, d, manageVisits, a, text);
    assert forall i :: 0 <= i < |d.stash.entries| ==> r.0.stash.entries[i] == r.0.stash.entries[..|d.stash.entries|][i];
  }

  // ---------------------------------------------------------------- import

  /** The stash record an inbox entry becomes: same ciphertext and sender, category "imported". */
  function Imported(p: PendingPeanut): (r: Peanut)
    ensures r.data == p.data
    ensures r.userEmail == p.email && r.userId == p.userId
    ensures r.category == ImportedCategory
  {
    Peanut(p.data, p.email, p.userId, ImportedCategory)
  }

  lemma RemoveFirst<V>(p: Store.PushList<V>)
    ensures Store.Valid(p) && |p.entries| > 0 ==> Store.Remove(p, p.entries[0].key).entries == p.entries[1..]
    ensures Store.Valid(p) && |p.entries| > 0 ==> Store.Valid(Store.Remove(p, p.entries[0].key))
  {
    if Store.Valid(p) && |p.entries| > 0 {
      Store.RemoveAt(p, 0);
    }
  }

  /**
    The inbox import, sequentially: for each entry of the inbox snapshot, push
    its record into the stash, then remove exactly that inbox key.
  */
  function ImportPending(stash: Store.PushList<Peanut>, inbox: Store.PushList<PendingPeanut>, snapshot: seq<Store.Entry<PendingPeanut>>): (r: (Store.PushList<Peanut>, Store.PushList<PendingPeanut>))
    ensures |r.0.entries| == |stash.entries| + |snapshot|
    ensures r.0.entries[..|stash.entries|] == stash.entries
    ensures forall j :: 0 <= j < |snapshot| ==> r.0.entries[|stash.entries| + j].val == Imported(snapshot[j].val)
    ensures Store.Valid(stash) ==> Store.Valid(r.0)
    ensures Store.Valid(inbox) && snapshot == inbox.entries ==> r.1.entries == [] && Store.Valid(r.1)
    decreases |snapshot|
  {
    if |snapshot| == 0 then (stash, inbox)
    else
      var s1 := Store.Push(stash, Imported(snapshot[0].val));
      var i1 := Store.Remove(inbox, snapshot[0].key);
      RemoveFirst(inbox);
      var r := ImportPending(s1, i1, snapshot[1..]);
      assert r.0.entries[..|stash.entries|] == r.0.entries[..|s1.entries|][..|stash.entries|];
      assert forall j :: 1 <= j < |snapshot| ==> snapshot[1..][j - 1] == snapshot[j];
      assert r.0.entries[|stash.entries|] == r.0.entries[..|s1.entries|][|stash.entries|];
      r
  }

  /** The import on a user's data: the whole inbox snapshot, in inbox order. */
  function Import(d: UserData): (r: UserData)
    ensures r.categories == d.categories
    ensures Store.Valid(d.pending) ==> r.pending.entries == []
    ensures |r.stash.entries| == |d.stash.entries| + |d.pending.entries|
    ensures forall i :: 0 <= i < |d.stash.entries| ==> r.stash.entries[i] == d.stash.entries[i]
  {
    var (s, p) := ImportPending(d.stash, d.pending, d.pending.entries);
    assert forall i :: 0 <= i < |d.stash.entries| ==> s.entries[i] == s.entries[..|d.stash.entries|][i];
    d.(stash := s, pending := p)
  }

  // ---------------------------------------------------------------- listing

  /** A listed item: decrypted text, author, category, and the key that delete removes. */
  datatype Listed = Listed(text: string, email: string, category: string, key: nat)

  datatype ListError = NoPeanuts | Undecryptable(key: nat, error: Crypto.CryptoError)

  /** A listed item shows its record: the record's ciphertext decrypts to its text, and the rest is copied. */
  predicate ListedFrom(c: Crypto.AsymCipher, privateKey: string, l: Listed, e: Store.Entry<Peanut>)
  {
    && Crypto.DecryptWithPrivateKey(c, privateKey, e.val.data) == Ok(l.text)
    && l.email == e.val.userEmail
    && l.category == e.val.category
    && l.key == e.key
  }

  /** Decrypts every item in store order; the first failure aborts the whole listing. */
  function DecryptAll(c: Crypto.AsymCipher, privateKey: string, entries: seq<Store.Entry<Peanut>>): (r: Result<seq<Listed>, ListError>)
    ensures r.Ok? <==> forall i :: 0 <= i < |entries| ==> Crypto.DecryptWithPrivateKey(c, privateKey, entries[i].val.data).Ok?
    ensures r.Ok? ==> |r.value| == |entries|
    ensures r.Ok? ==> forall i :: 0 <= i < |entries| ==> ListedFrom(c, privateKey, r.value[i], entries[i])
  {
    if |entries| == 0 then Ok([])
    else
      var e := entries[0];
      assert forall i :: 1 <= i < |entries| ==> entries[1..][i - 1] == entries[i];
      match Crypto.DecryptWithPrivateKey(c, privateKey, e.val.data)
      case Err(err) => Err(Undecryptable(e.key, err))
      case Ok(t) =>
        match DecryptAll(c, privateKey, entries[1..])
        case Err(err) => Err(err)
        case Ok(rest) => Ok([Listed(t, e.val.userEmail, e.val.category, e.key)] + rest)
  }

  function Reverse<T>(s: seq<T>): (r: seq<T>)
    ensures |r| == |s|
    ensures forall j :: 0 <= j < |s| ==> r[j] == s[|s| - 1 - j]
  {
    if |s| == 0 then [] else Reverse(s[1..]) + [s[0]]
  }

  /**
    listPeanuts' list: every item decrypted, then reversed, so that position 0
    is the most recently pushed item. An empty stash is an error of its own.
  */
  function ListPeanuts(c: Crypto.AsymCipher, user: User, stash: Store.PushList<Peanut>): (r: Result<seq<Listed>, ListError>)
    ensures |stash.entries| == 0 ==> r == Err(NoPeanuts)
    ensures |stash.entries| > 0 ==>
              (r.Ok? <==> forall i :: 0 <= i < |stash.entries| ==> Crypto.DecryptWithPrivateKey(c, user.keys.privateKey, stash.entries[i].val.data).Ok?)
    ensures r.Ok? ==> |r.value| == |stash.entries| > 0
    ensures r.Ok? ==> forall j :: 0 <= j < |r.value| ==>
              ListedFrom(c, user.keys.privateKey, r.value[j], stash.entries[|stash.entries| - 1 - j])
  {
    if |stash.entries| == 0 then Err(NoPeanuts)
    else
      match DecryptAll(c, user.keys.privateKey, stash.entries)
      case Err(e) => Err(e)
      case Ok(items) =>
        var rev := Reverse(items);
        assert forall j :: 0 <= j < |rev| ==> rev[j] == items[|items| - 1 - j];
        Ok(rev)
  }

  // ---------------------------------------------------------------- pagination

  /** `Math.floor(n / m)` for a positive page size, counted in whole pages (see FullPagesIsQuotient). */
  function FullPages(n: nat, m: nat): nat
    requires m > 0
    decreases n
  {
    if n < m then 0 else 1 + FullPages(n - m, m)
  }

  /** `currentPage * maxItemsPerPage`, the first position shown on page p (see PageStartIsProduct). */
  function PageStart(m: nat, p: nat): nat
  {
    if p == 0 then 0 else PageStart(m, p - 1) + m
  }

  /** Floor division: FullPages(n, m) pages of m fit in n, and one more does not. */
  lemma {:induction false} FullPagesBounds(n: nat, m: nat)
    requires m > 0
    ensures PageStart(m, FullPages(n, m)) <= n < PageStart(m, FullPages(n, m)) + m
    decreases n
  {
    if n >= m {
      FullPagesBounds(n - m, m);
    }
  }

  lemma {:induction false} PageStartIsProduct(m: nat, p: nat)
    ensures PageStart(m, p) == p * m
  {
    if p > 0 {
      PageStartIsProduct(m, p - 1);
      assert (p - 1) * m + m == p * m;
    }
  }

  lemma MulMonotone(a: nat, b: nat, m: nat)
    ensures a <= b ==> a * m <= b * m
  {
  }

  lemma QuotientUnique(n: nat, m: nat, q: nat)
    requires m > 0 && q * m <= n < q * m + m
    ensures n / m == q
  {
    var d := n / m;
    assert n == d * m + n % m;
    MulMonotone(d + 1, q, m);
    MulMonotone(q + 1, d, m);
    assert (d + 1) * m == d * m + m;
    assert (q + 1) * m == q * m + m;
  }

  lemma FullPagesIsQuotient(n: nat, m: nat)
    requires m > 0
    ensures FullPages(n, m) == n / m
    ensures PageStart(m, FullPages(n, m)) == (n / m) * m
  {
    FullPagesBounds(n, m);
    PageStartIsProduct(m, FullPages(n, m));
    QuotientUnique(n, m, FullPages(n, m));
  }

  lemma {:induction false} PageStartGrows(m: nat, a: nat, b: nat)
    requires a < b
    ensures PageStart(m, a) + m <= PageStart(m, b)
    decreases b
  {
    if b > a + 1 {
      PageStartGrows(m, a, b - 1);
    }
  }

  lemma {:induction false} FullPagesMonotone(i: nat, n: nat, m: nat)
    requires m > 0 && i <= n
    ensures FullPages(i, m) <= FullPages(n, m)
    decreases i
  {
    if i >= m {
      FullPagesMonotone(i - m, n - m, m);
    }
  }

  /**
    How many items page p shows: a full page before page floor(n/m), the rest
    on that page, and none past it (the filling loop then runs zero times).
  */
  function ItemsOnPage(n: nat, m: nat, p: nat): (count: nat)
    requires m > 0
  {
    if p < FullPages(n, m) then m
    else if PageStart(m, p) <= n then n - PageStart(m, p)
    else 0
  }

  /** ItemsOnPage is the item count the listing computes, `p < floor(n/m) ? m : n - p*m`, run as a loop bound. */
  lemma ItemsOnPageAsWritten(n: nat, m: nat, p: nat)
    requires m > 0
    ensures ItemsOnPage(n, m, p) == (if p < n / m then m else if p * m <= n then n - p * m else 0)
  {
    FullPagesIsQuotient(n, m);
    PageStartIsProduct(m, p);
  }

  /**
    The page arithmetic: page p < floor(n/m) shows exactly m items, page
    floor(n/m) shows the remaining n - p*m (fewer than m), later pages show
    nothing, and the positions shown all lie in [0, n).
  */
  lemma PageSize(n: nat, m: nat, p: nat)
    requires m > 0
    ensures p < FullPages(n, m) ==> ItemsOnPage(n, m, p) == m
    ensures p == FullPages(n, m) ==> ItemsOnPage(n, m, p) == n - PageStart(m, p) < m
    ensures p > FullPages(n, m) ==> ItemsOnPage(n, m, p) == 0
    ensures ItemsOnPage(n, m, p) > 0 ==> PageStart(m, p) + ItemsOnPage(n, m, p) <= n
  {
    var q := FullPages(n, m);
    FullPagesBounds(n, m);
    if p < q {
      PageStartGrows(m, p, q);
    } else if p > q {
      PageStartGrows(m, q, p);
    }
  }

  /** The page arithmetic in the listing's own terms: floor(n/m) full pages, then n mod m items. */
  lemma PageSizeAsWritten(n: nat, m: nat, p: nat)
    requires m > 0
    ensures p < n / m ==> ItemsOnPage(n, m, p) == m
    ensures p == n / m ==> ItemsOnPage(n, m, p) == n - p * m == n % m
    ensures p > n / m ==> ItemsOnPage(n, m, p) == 0
    ensures ItemsOnPage(n, m, p) > 0 ==> p * m + ItemsOnPage(n, m, p) <= n
  {
    PageSize(n, m, p);
    FullPagesIsQuotient(n, m);
    PageStartIsProduct(m, p);
    assert n == (n / m) * m + n % m;
  }

  /** Every item i is shown on page floor(i/m), and that page is reachable from page 0 by "Next Page". */
  lemma EveryItemOnItsPage(n: nat, m: nat, i: nat)
    requires m > 0 && i < n
    ensures FullPages(i, m) == i / m
    ensures FullPages(i, m) <= FullPages(n, m)
    ensures PageStart(m, FullPages(i, m)) <= i < PageStart(m, FullPages(i, m)) + ItemsOnPage(n, m, FullPages(i, m))
  {
    FullPagesBounds(i, m);
    FullPagesMonotone(i, n, m);
    PageSize(n, m, FullPages(i, m));
    FullPagesIsQuotient(i, m);
  }

  const NextOption := MenuOption("Next Page", "NXT:Next")
  const CancelOption := MenuOption("Cancel", "END:Cancel")

  /** An item's option: text, then the author when it is not the user, then the category when it is not "default". */
  function ItemOption(item: Listed, i: nat, userEmail: string): (r: MenuOption)
    ensures HasPrefix(r.caption, item.text)
    ensures HasPrefix(r.value, "DAT:") && r != NextOption && r != CancelOption
  {
    var authorNote := if item.email != userEmail then " (" + item.email + ")" else "";
    var categoryNote := if item.category != DefaultCategory then " #" + item.category else "";
    var details := "\t\t" + authorNote + "\t\t" + categoryNote;
    assert (item.text + details)[..|item.text|] == item.text;
    IndexedValueTag(i, item.text);
    MenuOption(item.text + details, IndexedValue(i, item.text))
  }

  /** The options of page p: its items, then "Next Page" unless it is the last page, then "Cancel". */
  function PageOptions(list: seq<Listed>, userEmail: string, m: nat, p: nat): (r: seq<MenuOption>)
    requires m > 0
    ensures var count := ItemsOnPage(|list|, m, p);
            && |r| == count + (if p < FullPages(|list|, m) then 2 else 1)
            && r[|r| - 1] == CancelOption
            && (NextOption in r <==> p < FullPages(|list|, m))
            && forall k :: 0 <= k < count ==>
                 PageStart(m, p) + k < |list| && r[k] == ItemOption(list[PageStart(m, p) + k], PageStart(m, p) + k, userEmail)
  {
    var n := |list|;
    var start := PageStart(m, p);
    var count := ItemsOnPage(n, m, p);
    PageSize(n, m, p);
    var items := seq(count, k requires 0 <= k < count => ItemOption(list[start + k], start + k, userEmail));
    var controls := if p < FullPages(n, m) then [NextOption, CancelOption] else [CancelOption];
    var r := items + controls;
    forall k | 0 <= k < count
      ensures r[k] == ItemOption(list[start + k], start + k, userEmail)
    {
      assert r[k] == items[k];
    }
    assert NextOption in r <==> NextOption in controls;
    r
  }

  /**
    When the item count is a positive multiple of the page size, the last page
    reached through "Next Page" shows no items at all, only "Cancel".
  */
  lemma EmptyLastPage(list: seq<Listed>, userEmail: string, m: nat)
    requires m > 0 && |list| > 0 && |list| % m == 0
    ensures FullPages(|list|, m) >= 1
    ensures NextOption in PageOptions(list, userEmail, m, FullPages(|list|, m) - 1)
    ensures PageOptions(list, userEmail, m, FullPages(|list|, m)) == [CancelOption]
  {
    var n := |list|;
    FullPagesIsQuotient(n, m);
    assert n == (n / m) * m + n % m;
    PageSize(n, m, FullPages(n, m));
  }

  /** Item k of page p carries position PageStart(m, p) + k of the listing and that item's text. */
  lemma ItemValue(list: seq<Listed>, userEmail: string, m: nat, p: nat, k: nat)
    requires m > 0 && k < ItemsOnPage(|list|, m, p)
    ensures PageStart(m, p) + k < |list|
    ensures PageOptions(list, userEmail, m, p)[k].value == IndexedValue(PageStart(m, p) + k, list[PageStart(m, p) + k].text)
  {
    PageSize(|list|, m, p);
    var r := PageOptions(list, userEmail, m, p);
    assert r[k] == ItemOption(list[PageStart(m, p) + k], PageStart(m, p) + k, userEmail);
  }

  /**
    Choosing an item on a page decodes to its position in the list exactly, and
    to its text exactly when the text has no ':'; otherwise to the text before the first ':'.
  */
  lemma ItemChoiceDecodes(list: seq<Listed>, userEmail: string, m: nat, p: nat, k: nat, i: nat)
    requires m > 0 && k < ItemsOnPage(|list|, m, p) && i == PageStart(m, p) + k
    ensures i < |list|
    ensures var d := DecodeIndexed(PageOptions(list, userEmail, m, p)[k].value);
            && Strings.ParseIndex(d.index) == Some(i)
            && d.payload == Some(Strings.Split(list[i].text, ':')[0])
            && (d.payload == Some(list[i].text) <==> ':' !in list[i].text)
  {
    ItemValue(list, userEmail, m, p, k);
    DecodeIndexedValue(i, list[i].text);
    DecodeIndexedPosition(i, list[i].text);
  }

  // ---------------------------------------------------------------- delete and pop

  /** Delete of a chosen item: removes the record at the decoded position of the listed (latest-first) array. */
  function DeleteChosen(stash: Store.PushList<Peanut>, list: seq<Listed>, value: string): (r: Store.PushList<Peanut>)
    ensures |r.entries| <= |stash.entries|
    ensures r.clock == stash.clock
  {
    match Strings.ParseIndex(DecodeIndexed(value).index)
    case Some(i) =>
      if i < |list| then
        var r := Store.Remove(stash, list[i].key);
        assert |r.entries| <= |stash.entries|;
        r
      else stash
    case None => stash
  }

  /**
    Deleting the item chosen at position k of page p, which is position
    i = PageStart(m, p) + k of the listing, removes the stash record pushed (n - 1 - i)-th
    and keeps every other record in order.
  */
  lemma DeleteRemovesChosen(c: Crypto.AsymCipher, user: User, stash: Store.PushList<Peanut>, list: seq<Listed>, m: nat, p: nat, k: nat, i: nat)
    requires Store.Valid(stash) && m > 0
    requires ListPeanuts(c, user, stash) == Ok(list)
    requires k < ItemsOnPage(|list|, m, p) && i == PageStart(m, p) + k
    ensures i < |stash.entries|
    ensures DeleteChosen(stash, list, PageOptions(list, user.email, m, p)[k].value).entries
              == stash.entries[..|stash.entries| - 1 - i] + stash.entries[|stash.entries| - i..]
  {
    ItemChoiceDecodes(list, user.email, m, p, k, i);
    ListedKey(c, user, stash, list, i);
    DeleteAt(stash, list, i, PageOptions(list, user.email, m, p)[k].value);
  }

  /** The listed item at position i carries the key of the record pushed (n - 1 - i)-th. */
  lemma ListedKey(c: Crypto.AsymCipher, user: User, stash: Store.PushList<Peanut>, list: seq<Listed>, i: nat)
    requires ListPeanuts(c, user, stash) == Ok(list) && i < |list|
    ensures |list| == |stash.entries|
    ensures list[i].key == stash.entries[|stash.entries| - 1 - i].key
  {
  }

  /** Deleting by a value that decodes to position i removes the record listed at i, and only it. */
  lemma DeleteAt(stash: Store.PushList<Peanut>, list: seq<Listed>, i: nat, v: string)
    requires Store.Valid(stash)
    requires |list| == |stash.entries| && i < |list|
    requires list[i].key == stash.entries[|stash.entries| - 1 - i].key
    requires Strings.ParseIndex(DecodeIndexed(v).index) == Some(i)
    ensures DeleteChosen(stash, list, v).entries == stash.entries[..|stash.entries| - 1 - i] + stash.entries[|stash.entries| - i..]
    ensures Store.Valid(DeleteChosen(stash, list, v))
  {
    Store.RemoveAt(stash, |stash.entries| - 1 - i);
  }

  /** The action picked for a chosen item; delete and execute carry the confirmation answer. */
  datatype ItemAction = CopyItem | PrintItem | ShareItem | CancelItem | DeleteItem(confirmed: bool) | ExecuteItem(confirmed: bool) | UnknownAction

  /** What one answer on a list page leads to. */
  datatype ListOutcome =
    | ShowPage(page: nat)
    | Exit
    | Copied(text: string)
    | Printed(text: string)
    | Opened(url: string)
    | Ran(command: string)
    | Deleted(stash: Store.PushList<Peanut>)
    | Shared

  /** Both URL prefixes the execute action tests for contain a ':'. */
  lemma UrlPrefixNeedsColon(t: string)
    requires ':' !in t
    ensures !HasPrefix(t, "https://") && !HasPrefix(t, "http://")
  {
    if |t| >= 8 {
      assert t[..8][5] == t[5] != ':';
    }
    if |t| >= 7 {
      assert t[..7][4] == t[4] != ':';
    }
  }

  /**
    One answer on page p: a data option is acted on with its decoded text, "NXT:"
    moves to the next page, "END:" exits, and anything else shows the page again.
    The decoded text was cut at its first ':', so it never starts with "https://"
    or "http://": the branch that opens a link in the browser cannot be reached,
    and a confirmed execute always runs the text as a command.
  */
  function ListStep(stash: Store.PushList<Peanut>, list: seq<Listed>, p: nat, value: string, action: ItemAction): (r: ListOutcome)
    ensures !r.Opened?
    ensures r.Ran? ==> action == ExecuteItem(true) && HasPrefix(value, "DAT:") && ':' !in r.command
    ensures r.Deleted? ==> action == DeleteItem(true) && HasPrefix(value, "DAT:")
    ensures !HasPrefix(value, "DAT:") ==> r == Exit || r == ShowPage(p) || r == ShowPage(p + 1)
  {
    if HasPrefix(value, "DAT:") then
      var text := PayloadText(DecodeIndexed(value));
      assert ':' !in text;
      UrlPrefixNeedsColon(text);
      match action
      case CopyItem => Copied(text)
      case PrintItem => Printed(text)
      case ShareItem => Shared
      case CancelItem => Exit
      case DeleteItem(confirmed) => if confirmed then Deleted(DeleteChosen(stash, list, value)) else Exit
      case ExecuteItem(confirmed) =>
        if !confirmed then Exit
        else if HasPrefix(text, "https://") || HasPrefix(text, "http://") then Opened(text)
        else Ran(text)
      case UnknownAction => Exit
    else if HasPrefix(value, "NXT:") then ShowPage(p + 1)
    else if HasPrefix(value, "END:") then Exit
    else ShowPage(p)
  }

  /**
    Acting on a data option copies, prints or runs its payload cut at the
    first ':', and a confirmed delete removes the record its index names.
  */
  lemma DataStep(stash: Store.PushList<Peanut>, list: seq<Listed>, p: nat, i: nat, payload: string)
    ensures var v := IndexedValue(i, payload);
            var t := Strings.Split(payload, ':')[0];
            && ListStep(stash, list, p, v, CopyItem) == Copied(t)
            && ListStep(stash, list, p, v, PrintItem) == Printed(t)
            && ListStep(stash, list, p, v, ExecuteItem(true)) == Ran(t)
            && ListStep(stash, list, p, v, DeleteItem(true)) == Deleted(DeleteChosen(stash, list, v))
            && ListStep(stash, list, p, v, DeleteItem(false)) == Exit
  {
    IndexedValueTag(i, payload);
    DecodeIndexedValue(i, payload);
  }

  /**
    Acting on item k of page p, which is position i = PageStart(m, p) + k of the
    listing, copies, prints or runs that item's text cut at its first ':'.
    (A confirmed delete of it is DeleteRemovesChosen, through DataStep.)
  */
  lemma ItemStep(stash: Store.PushList<Peanut>, list: seq<Listed>, userEmail: string, m: nat, p: nat, k: nat, i: nat, v: string)
    requires m > 0
    requires k < ItemsOnPage(|list|, m, p) && i == PageStart(m, p) + k
    requires v == PageOptions(list, userEmail, m, p)[k].value
    ensures i < |list|
    ensures var t := Strings.Split(list[i].text, ':')[0];
            && ListStep(stash, list, p, v, CopyItem) == Copied(t)
            && ListStep(stash, list, p, v, PrintItem) == Printed(t)
            && ListStep(stash, list, p, v, ExecuteItem(true)) == Ran(t)
            && (':' !in list[i].text ==> ListStep(stash, list, p, v, CopyItem) == Copied(list[i].text))
  {
    ItemValue(list, userEmail, m, p, k);
    DataStep(stash, list, p, i, list[i].text);
    Strings.SplitHead(list[i].text, ':');
  }

  /** The control options: "Next Page" moves to page p + 1 and "Cancel" exits, whatever action would follow. */
  lemma ControlStep(stash: Store.PushList<Peanut>, list: seq<Listed>, p: nat, action: ItemAction)
    ensures ListStep(stash, list, p, CancelOption.value, action) == Exit
    ensures ListStep(stash, list, p, NextOption.value, action) == ShowPage(p + 1)
  {
    assert CancelOption.value[..4] == "END:";
    assert NextOption.value[..4] == "NXT:";
  }

  /**
    popPeanut: looks up the record under the snapshot's last key and decrypts
    it. A snapshot's keys are distinct and in push order, so that record is the
    last child; a record that does not decrypt is reported under its key.
  */
  function PopPeanut(c: Crypto.AsymCipher, user: User, stash: Store.PushList<Peanut>): (r: Result<string, ListError>)
    requires Store.Increasing(stash.entries)
    ensures |stash.entries| == 0 ==> r == Err(NoPeanuts)
    ensures |stash.entries| > 0 ==>
              (r.Ok? <==> Crypto.DecryptWithPrivateKey(c, user.keys.privateKey, stash.entries[|stash.entries| - 1].val.data).Ok?)
    ensures r.Ok? ==> Crypto.DecryptWithPrivateKey(c, user.keys.privateKey, stash.entries[|stash.entries| - 1].val.data) == Ok(r.value)
    ensures |stash.entries| > 0 && r.Err? ==>
              var last := stash.entries[|stash.entries| - 1];
              r == Err(Undecryptable(last.key, Crypto.DecryptWithPrivateKey(c, user.keys.privateKey, last.val.data).error))
  {
    if |stash.entries| == 0 then Err(NoPeanuts)
    else
      var lastKey := stash.entries[|stash.entries| - 1].key;
      Store.LookupAt(stash.entries, |stash.entries| - 1);
      var record := Store.Lookup(stash, lastKey).value;
      match Crypto.DecryptWithPrivateKey(c, user.keys.privateKey, record.data)
      case Err(e) => Err(Undecryptable(lastKey, e))
      case Ok(t) => Ok(t)
  }

  /** Pop reads the item the listing shows first: the most recently pushed one. */
  lemma PopIsFirstListed(c: Crypto.AsymCipher, user: User, stash: Store.PushList<Peanut>)
    requires Store.Increasing(stash.entries)
    requires ListPeanuts(c, user, stash).Ok?
    ensures PopPeanut(c, user, stash) == Ok(ListPeanuts(c, user, stash).value[0].text)
  {
  }

  // ---------------------------------------------------------------- scenarios

  /** A stash of one decryptable record lists as exactly that record. */
  lemma ListSingle(c: Crypto.AsymCipher, user: User, stash: Store.PushList<Peanut>, text: string)
    requires |stash.entries| == 1
    requires Crypto.DecryptWithPrivateKey(c, user.keys.privateKey, stash.entries[0].val.data) == Ok(text)
    ensures ListPeanuts(c, user, stash)
              == Ok([Listed(text, stash.entries[0].val.userEmail, stash.entries[0].val.category, stash.entries[0].key)])
  {
    var r := ListPeanuts(c, user, stash);
    var e := stash.entries[0];
    assert r.Ok?;
    assert |r.value| == 1;
    assert r.value[0].text == text;
    assert r.value[0] == Listed(text, e.val.userEmail, e.val.category, e.key);
    assert r.value == [Listed(text, e.val.userEmail, e.val.category, e.key)];
  }

  /** Stashing a text into an empty stash and listing shows exactly that one item. */
  lemma StashThenList(c: Crypto.AsymCipher, user: User, maxLength: nat, text: string, category: string, clock: nat)
    requires Crypto.CorrectFor(c, user.keys)
    requires Strings.Utf16Length(text) <= maxLength && |Utf8.Encode(text)| <= c.capacity
    ensures var s := StashPeanut(c, user, maxLength, text, category, Store.Empty(clock));
            && s.Ok?
            && ListPeanuts(c, user, s.value) == Ok([Listed(text, user.email, category, clock)])
  {
    var s := StashPeanut(c, user, maxLength, text, category, Store.Empty(clock));
    StashGate(c, user, maxLength, text, category, Store.Empty(clock));
    assert s.value.entries[0].key == clock;
    ListSingle(c, user, s.value, text);
  }

  /**
    The sharing round trip on the receiving side: an inbox entry encrypted for
    the user, once imported into an empty stash, lists as its plaintext under
    the sender's email and the "imported" category, and the inbox is empty.
  */
  lemma ImportThenList(c: Crypto.AsymCipher, user: User, d: UserData, text: string, sender: string, senderId: string, key: nat)
    requires Crypto.CorrectFor(c, user.keys)
    requires |d.stash.entries| == 0
    requires Crypto.EncryptWithPublicKey(c, user.keys.publicKey, text).Ok?
    requires d.pending.entries == [Store.Entry(key, PendingPeanut(Crypto.EncryptWithPublicKey(c, user.keys.publicKey, text).value, sender, senderId))]
    requires Store.Valid(d.pending)
    ensures Import(d).pending.entries == []
    ensures ListPeanuts(c, user, Import(d).stash) == Ok([Listed(text, sender, ImportedCategory, d.stash.clock)])
  {
    Crypto.PublicKeyRoundTrip(c, user.keys, text);
    var r := Import(d);
    assert |r.stash.entries| == 1;
    assert r.stash.entries[0].key == d.stash.clock;
    assert r.stash.entries[0].val == Imported(d.pending.entries[0].val);
    ListSingle(c, user, r.stash, text);
  }
}

=== FILE: store.dfy ===
/**
  The remote keyed-document store, reduced to what the program relies on for
  collections written with `push`: a snapshot lists the children in key order,
  `push` appends a child under a fresh key newer than all others, and `remove`
  deletes one child by key.
*/
module Store {
  import opened Wrappers

  /** A child of a collection: its push key and its record. */
  datatype Entry<V> = Entry(key: nat, val: V)

  /** The children of a push-keyed collection, with the clock that issues the next key. */
  datatype PushList<V> = PushList(entries: seq<Entry<V>>, clock: nat)

  /** Keys strictly increase along the children. */
  ghost predicate Increasing<V>(c: seq<Entry<V>>)
  {
    forall i, j :: 0 <= i < j < |c| ==> c[i].key < c[j].key
  }

  /** Push keys increase in insertion order and are all older than the clock. */
  ghost predicate Valid<V>(p: PushList<V>)
  {
    && Increasing(p.entries)
    && (forall i :: 0 <= i < |p.entries| ==> p.entries[i].key < p.clock)
  }

  lemma IncreasingTail<V>(c: seq<Entry<V>>)
    requires Increasing(c) && |c| > 0
    ensures Increasing(c[1..])
    ensures forall j :: 0 <= j < |c[1..]| ==> c[1..][j].key != c[0].key
  {
    forall a, b | 0 <= a < b < |c[1..]|
      ensures c[1..][a].key < c[1..][b].key
    {
      assert c[1..][a] == c[a + 1] && c[1..][b] == c[b + 1];
    }
    forall j | 0 <= j < |c[1..]|
      ensures c[1..][j].key != c[0].key
    {
      assert c[1..][j] == c[j + 1];
    }
  }

  /** An empty collection; the first key the clock issues is arbitrary. */
  function Empty<V>(clock: nat): (p: PushList<V>)
    ensures Valid(p) && |p.entries| == 0
  {
    PushList([], clock)
  }

  /** The records of a snapshot, in snapshot order. */
  function Values<V>(p: PushList<V>): (r: seq<V>)
    ensures |r| == |p.entries|
    ensures forall i :: 0 <= i < |r| ==> r[i] == p.entries[i].val
  {
    seq(|p.entries|, i requires 0 <= i < |p.entries| => p.entries[i].val)
  }

  /** `push(node, v)`: a new last child under a key newer than every existing one. */
  function Push<V>(p: PushList<V>, v: V): (r: PushList<V>)
    ensures Valid(p) ==> Valid(r)
    ensures |r.entries| == |p.entries| + 1
    ensures r.entries[..|p.entries|] == p.entries
    ensures r.entries[|p.entries|].val == v
    ensures Valid(p) ==> forall i :: 0 <= i < |p.entries| ==> p.entries[i].key != r.entries[|p.entries|].key
  {
    PushList(p.entries + [Entry(p.clock, v)], p.clock + 1)
  }

  /** The children other than the one under key k, in their order. */
  function Without<V>(c: seq<Entry<V>>, k: nat): (r: seq<Entry<V>>)
    ensures |r| <= |c|
    ensures forall i :: 0 <= i < |r| ==> r[i].key != k
    ensures (forall i :: 0 <= i < |c| ==> c[i].key != k) ==> r == c
  {
    if |c| == 0 then []
    else if c[0].key == k then Without(c[1..], k)
    else [c[0]] + Without(c[1..], k)
  }

  /** `remove(child)`: deletes the child under key k; removing a missing key changes nothing. */
  function Remove<V>(p: PushList<V>, k: nat): (r: PushList<V>)
    ensures r.clock == p.clock
    ensures forall i :: 0 <= i < |r.entries| ==> r.entries[i].key != k
    ensures (forall i :: 0 <= i < |p.entries| ==> p.entries[i].key != k) ==> r == p
  {
    PushList(Without(p.entries, k), p.clock)
  }

  /** The record under key k, None when no child has that key. */
  function Lookup<V>(p: PushList<V>, k: nat): (r: Option<V>)
    ensures r.None? <==> forall i :: 0 <= i < |p.entries| ==> p.entries[i].key != k
  {
    LookupIn(p.entries, k)
  }

  function LookupIn<V>(c: seq<Entry<V>>, k: nat): (r: Option<V>)
    ensures r.None? <==> forall i :: 0 <= i < |c| ==> c[i].key != k
  {
    if |c| == 0 then None
    else if c[0].key == k then Some(c[0].val)
    else
      var r := LookupIn(c[1..], k);
      assert forall i :: 1 <= i < |c| ==> c[i] == c[1..][i - 1];
      r
  }

  /** Removing by key from increasing keys removes exactly the child at that key's position. */
  lemma {:induction false} WithoutAt<V>(c: seq<Entry<V>>, i: nat)
    requires i < |c|
    requires Increasing(c)
    ensures Without(c, c[i].key) == c[..i] + c[i + 1..]
  {
    IncreasingTail(c);
    if i > 0 {
      WithoutAt(c[1..], i - 1);
      assert c[1..][i - 1] == c[i];
      assert c[..i] == [c[0]] + c[1..][..i - 1];
      assert c[i + 1..] == c[1..][i..];
    }
  }

  lemma SkipKeepsIncreasing<V>(c: seq<Entry<V>>, i: nat)
    requires Increasing(c) && i < |c|
    ensures Increasing(c[..i] + c[i + 1..])
  {
    var r := c[..i] + c[i + 1..];
    forall a, b | 0 <= a < b < |r|
      ensures r[a].key < r[b].key
    {
      var a' := if a < i then a else a + 1;
      var b' := if b < i then b else b + 1;
      assert r[a] == c[a'] && r[b] == c[b'];
    }
  }

  /** In a valid collection, removing the key of the i-th child deletes that child and keeps the rest in order. */
  lemma RemoveAt<V>(p: PushList<V>, i: nat)
    requires Valid(p) && i < |p.entries|
    ensures Remove(p, p.entries[i].key).entries == p.entries[..i] + p.entries[i + 1..]
    ensures Valid(Remove(p, p.entries[i].key))
  {
    WithoutAt(p.entries, i);
    SkipKeepsIncreasing(p.entries, i);
    var r := p.entries[..i] + p.entries[i + 1..];
    forall a | 0 <= a < |r|
      ensures r[a].key < p.clock
    {
      var a' := if a < i then a else a + 1;
      assert r[a] == p.entries[a'];
    }
  }

  /** In a valid collection, looking up the key of the i-th child finds that child's record. */
  lemma {:induction false} LookupAt<V>(c: seq<Entry<V>>, i: nat)
    requires i < |c|
    requires Increasing(c)
    ensures LookupIn(c, c[i].key) == Some(c[i].val)
  {
    if i > 0 {
      IncreasingTail(c);
      LookupAt(c[1..], i - 1);
      assert c[1..][i - 1] == c[i];
    }
  }
}

=== FILE: strings.dfy ===
/**
  String helpers with the semantics of the JavaScript built-ins the program uses:
  `replace(/c/g, d)`, `split(':')`, `slice(4)`, `String(number)`, array indexing
  by a numeric property name, and `length` (counted in UTF-16 code units).
*/
module Strings {
  import opened Wrappers

  /**
    The text JavaScript makes of a value that may be undefined (a missing
    command-line word, a missing `split` field): the value itself, or "undefined".
  */
  function StringOf(a: Option<string>): string
  {
    match a
    case Some(s) => s
    case None => "undefined"
  }

  /** `s.replace(/from/g, to)` for a one-character pattern. */
  function ReplaceAll(s: string, from: char, to: char): (r: string)
    ensures |r| == |s|
    ensures forall i :: 0 <= i < |s| && s[i] != from ==> r[i] == s[i]
    ensures forall i :: 0 <= i < |s| && s[i] == from ==> r[i] == to
  {
    if |s| == 0 then ""
    else [if s[0] == from then to else s[0]] + ReplaceAll(s[1..], from, to)
  }

  /** Position of the first occurrence of `c` in `s`. */
  function FirstIndex(s: string, c: char): (i: nat)
    requires c in s
    ensures i < |s| && s[i] == c && c !in s[..i]
  {
    if s[0] == c then 0 else 1 + FirstIndex(s[1..], c)
  }

  /**
    `s.split(sep)` for a one-character separator: the maximal runs between
    separators, so there is always one more field than separators.
  */
  function Split(s: string, sep: char): (r: seq<string>)
    ensures |r| >= 1
    ensures forall k :: 0 <= k < |r| ==> sep !in r[k]
    ensures sep !in s ==> r == [s]
    decreases |s|
  {
    if sep in s then
      var i := FirstIndex(s, sep);
      [s[..i]] + Split(s[i + 1..], sep)
    else [s]
  }

  /** Splitting a separator-free prefix off a string yields that prefix as the first field. */
  lemma {:induction false} SplitAfterPrefix(a: string, sep: char, b: string)
    requires sep !in a
    ensures Split(a + [sep] + b, sep) == [a] + Split(b, sep)
  {
    var s := a + [sep] + b;
    assert s[|a|] == sep;
    var i := FirstIndex(s, sep);
    assert forall k :: 0 <= k < |a| ==> s[k] == a[k];
    assert i == |a|;
    assert s[..i] == a;
    assert s[i + 1..] == b;
  }

  /** The first field of a split is the text before the first separator, or everything. */
  lemma SplitHead(s: string, sep: char)
    ensures sep in s ==> Split(s, sep)[0] == s[..FirstIndex(s, sep)]
    ensures sep !in s ==> Split(s, sep)[0] == s
  {
  }

  predicate IsDigit(c: char) { '0' <= c <= '9' }

  function DigitChar(d: nat): (c: char)
    requires d < 10
    ensures IsDigit(c)
  {
    ('0' as int + d) as char
  }

  function DigitValue(c: char): (d: nat)
    requires IsDigit(c)
    ensures d < 10
  {
    c as int - '0' as int
  }

  /** Decimal text of a natural number, as `String(n)` produces it. */
  function NatToString(n: nat): (r: string)
    ensures |r| >= 1
    ensures forall k :: 0 <= k < |r| ==> IsDigit(r[k])
    ensures r[0] == '0' <==> n == 0
    ensures n == 0 ==> r == "0"
  {
    if n < 10 then [DigitChar(n)] else NatToString(n / 10) + [DigitChar(n % 10)]
  }

  /** Decimal text of an integer, as `${i}` produces it in a template literal. */
  function IntToString(i: int): (r: string)
    ensures |r| >= 1
    ensures ':' !in r
  {
    if i < 0 then "-" + NatToString(-i) else NatToString(i)
  }

  predicate AllDigits(s: string) { forall k :: 0 <= k < |s| ==> IsDigit(s[k]) }

  function DigitsValue(s: string): nat
    requires AllDigits(s)
  {
    if |s| == 0 then 0 else DigitsValue(s[..|s| - 1]) * 10 + DigitValue(s[|s| - 1])
  }

  /**
    The array index a property name denotes: `list[name]` reads an element exactly
    when `name` is the canonical decimal text of a natural number ("3", not "03" or "-1").
  */
  function ParseIndex(s: string): (r: Option<nat>)
    ensures r.Some? ==> |s| >= 1 && AllDigits(s)
  {
    if |s| >= 1 && AllDigits(s) && (s[0] != '0' || |s| == 1) then Some(DigitsValue(s)) else None
  }

  /** Reading back the decimal text of an index gives the index. */
  lemma {:induction false} DigitsOfNat(n: nat)
    ensures DigitsValue(NatToString(n)) == n
  {
    if n >= 10 {
      DigitsOfNat(n / 10);
      var s := NatToString(n);
      assert s[..|s| - 1] == NatToString(n / 10);
    }
  }

  lemma ParseIndexOfNat(n: nat)
    ensures ParseIndex(NatToString(n)) == Some(n)
  {
    DigitsOfNat(n);
  }

  /** A negative index never names an array element. */
  lemma ParseIndexOfNegative(i: int)
    requires i < 0
    ensures ParseIndex(IntToString(i)).None?
  {
    assert IntToString(i)[0] == '-';
  }

  /** `IntToString` read back by `ParseIndex`: exactly the non-negative integers round-trip. */
  lemma ParseIndexOfInt(i: int)
    ensures i >= 0 ==> ParseIndex(IntToString(i)) == Some(i)
    ensures i < 0 ==> ParseIndex(IntToString(i)).None?
  {
    if i >= 0 { ParseIndexOfNat(i); } else { ParseIndexOfNegative(i); }
  }

  /** Number of UTF-16 code units a character occupies in a JavaScript string. */
  function CodeUnits(c: char): (n: nat)
    ensures n == 1 || n == 2
  {
    if c as int >= 0x10000 then 2 else 1
  }

  /** `s.length` in JavaScript: characters outside the Basic Multilingual Plane count twice. */
  function Utf16Length(s: string): (n: nat)
    ensures |s| <= n <= 2 * |s|
    ensures (forall k :: 0 <= k < |s| ==> s[k] as int < 0x10000) ==> n == |s|
  {
    if |s| == 0 then 0 else CodeUnits(s[0]) + Utf16Length(s[1..])
  }

  /** Code-point order of strings (characters are Unicode scalar values); the stand-in for `localeCompare` (see README). */
  predicate LessEq(a: string, b: string)
  {
    if |a| == 0 then true
    else if |b| == 0 then false
    else if a[0] != b[0] then a[0] < b[0]
    else LessEq(a[1..], b[1..])
  }

  lemma {:induction false} LessEqTotal(a: string, b: string)
    ensures LessEq(a, b) || LessEq(b, a)
  {
    if |a| > 0 && |b| > 0 && a[0] == b[0] {
      LessEqTotal(a[1..], b[1..]);
    }
  }

  lemma {:induction false} LessEqAntisymmetric(a: string, b: string)
    requires LessEq(a, b) && LessEq(b, a)
    ensures a == b
  {
    if |a| > 0 && |b| > 0 {
      LessEqAntisymmetric(a[1..], b[1..]);
      assert a == [a[0]] + a[1..];
      assert b == [b[0]] + b[1..];
    }
  }

  lemma {:induction false} LessEqTransitive(a: string, b: string, c: string)
    requires LessEq(a, b) && LessEq(b, c)
    ensures LessEq(a, c)
  {
    if |a| > 0 && |b| > 0 && |c| > 0 && a[0] == b[0] && b[0] == c[0] {
      LessEqTransitive(a[1..], b[1..], c[1..]);
    }
  }
}

=== FILE: users.dfy ===
/**
  The identity and contacts logic of the users module: the password policy of
  registration and of password reset, the encoding of an email as a store key,
  the contact list and its menu, and the provisioning of a key pair on first login.
*/
module Users {
  import opened Wrappers
  import Strings
  import Email
  import Crypto
  import opened Prompts

  // ---------------------------------------------------------------- passwords

  predicate IsLower(c: char) { 'a' <= c <= 'z' }
  predicate IsUpper(c: char) { 'A' <= c <= 'Z' }

  /** The class `[!@#$%^&*()_+\-=\[\]{};':"\\|,.<>\/?]` of the complexity check. */
  predicate IsSpecial(c: char)
  {
    c in SpecialClass
  }

  const SpecialClass := "!@#$%^&*()_+-=[]{};':\"\\|,.<>/?"

  /** The four complexity tests: a lower-case letter, an upper-case letter, a digit and a special character. */
  predicate IsComplex(p: string)
  {
    && (exists k :: 0 <= k < |p| && IsLower(p[k]))
    && (exists k :: 0 <= k < |p| && IsUpper(p[k]))
    && (exists k :: 0 <= k < |p| && Strings.IsDigit(p[k]))
    && (exists k :: 0 <= k < |p| && IsSpecial(p[k]))
  }

  /** The minimum `password.length` at registration. */
  const MinPasswordLength: nat := 8

  datatype RegisterError = InvalidEmail | PasswordsDiffer | TooShort | TooWeak

  /**
    registerUser's checks, in their order, before any account is created: the
    email, the two entries, the length (in UTF-16 code units), the complexity.
    On success the email and password go to the authentication service.
  */
  function CheckRegistration(email: Option<string>, password0: string, password: string): (r: Result<(string, string), RegisterError>)
    ensures r.Ok? <==>
              && Email.IsValidEmail(Strings.StringOf(email))
              && password0 == password
              && Strings.Utf16Length(password) >= MinPasswordLength
              && IsComplex(password)
    ensures r.Ok? ==> r.value == (Strings.StringOf(email), password)
    ensures r == Err(InvalidEmail) <==> !Email.IsValidEmail(Strings.StringOf(email))
    ensures r == Err(PasswordsDiffer) <==> Email.IsValidEmail(Strings.StringOf(email)) && password0 != password
  {
    var e := Strings.StringOf(email);
    if !Email.IsValidEmail(e) then Err(InvalidEmail)
    else if password0 != password then Err(PasswordsDiffer)
    else if Strings.Utf16Length(password) < MinPasswordLength then Err(TooShort)
    else if !IsComplex(password) then Err(TooWeak)
    else Ok((e, password))
  }

  /** A missing email argument is the text "undefined", which has no '@' and is rejected. */
  lemma MissingEmailRejected(p0: string, p: string)
    ensures CheckRegistration(None, p0, p) == Err(InvalidEmail)
  {
    assert '@' !in "undefined";
  }

  datatype ResetError = NotLoggedIn | IncorrectPassword | NewPasswordsDiffer | NewPasswordTooWeak

  /**
    resetPassword's checks: a cached session must exist (`cached` is its
    decrypted password), the entered current password must equal it, the two
    new entries must agree, and the new password must pass the complexity
    tests. There is no length test.
  */
  function CheckReset(entered: string, cached: Option<string>, new0: string, new1: string): (r: Result<string, ResetError>)
    ensures r.Ok? <==> cached == Some(entered) && new0 == new1 && IsComplex(new0)
    ensures r.Ok? ==> r.value == new0
    ensures cached.None? ==> r == Err(NotLoggedIn)
    ensures cached.Some? && cached.value != entered ==> r == Err(IncorrectPassword)
  {
    match cached
    case None => Err(NotLoggedIn)
    case Some(saved) =>
      if entered != saved then Err(IncorrectPassword)
      else if new0 != new1 then Err(NewPasswordsDiffer)
      else if !IsComplex(new0) then Err(NewPasswordTooWeak)
      else Ok(new0)
  }

  /**
    The reset policy is weaker than the registration policy: every password
    registration accepts, reset accepts too, but reset also accepts "aA1!",
    which registration rejects as too short.
  */
  lemma ResetWeakerThanRegistration(email: Option<string>, current: string, p: string)
    ensures CheckRegistration(email, p, p).Ok? ==> CheckReset(current, Some(current), p, p) == Ok(p)
    ensures CheckReset(current, Some(current), "aA1!", "aA1!") == Ok("aA1!")
    ensures CheckRegistration(email, "aA1!", "aA1!").Ok? == false
  {
    var w := "aA1!";
    assert IsComplex(w) by {
      assert SpecialClass[0] == w[3];
      assert IsLower(w[0]) && IsUpper(w[1]) && Strings.IsDigit(w[2]) && IsSpecial(w[3]);
    }
    assert Strings.Utf16Length(w) == 4 by {
      assert w[1..][1..][1..][1..] == [];
    }
    if CheckRegistration(email, p, p).Ok? {
      assert CheckReset(current, Some(current), p, p) == Ok(p);
    }
  }

  // ---------------------------------------------------------------- store keys

  /**
    A character the store refuses in a path or a key: '[', ']', '#', '$' and
    the ASCII control characters. ('.' is refused as well, but an encoded key
    has none; '/' is accepted as a path separator.)
  */
  predicate PathIllegal(c: char)
  {
    c == '[' || c == ']' || c == '#' || c == '$' || (c as int) < 0x20 || (c as int) == 0x7F
  }

  /** A key the store accepts as one path segment or as an update key. */
  predicate IsStoreKey(k: string)
  {
    forall i :: 0 <= i < |k| ==> !PathIllegal(k[i])
  }

  /** The store key of an email: every '.' becomes '_', as `email.replace(/\./g, '_')`. */
  function EncodeKey(e: string): (k: string)
    ensures |k| == |e|
    ensures '.' !in k
  {
    Strings.ReplaceAll(e, '.', '_')
  }

  /** The display form of a store key: every '_' becomes '.'. */
  function DecodeKey(k: string): (e: string)
    ensures |e| == |k|
    ensures '_' !in e
  {
    Strings.ReplaceAll(k, '_', '.')
  }

  /** Decoding restores an email from its key exactly when the email has no '_'. */
  lemma KeyRoundTrip(e: string)
    ensures DecodeKey(EncodeKey(e)) == e <==> '_' !in e
  {
    var d := DecodeKey(EncodeKey(e));
    if '_' !in e {
      assert forall i :: 0 <= i < |e| ==> d[i] == e[i];
    }
  }

  /** Encoding a key that came from decoding gives the key back exactly when the key has no '.'. */
  lemma DecodedKeyRoundTrip(k: string)
    ensures EncodeKey(DecodeKey(k)) == k <==> '.' !in k
  {
    var d := EncodeKey(DecodeKey(k));
    if '.' !in k {
      assert forall i :: 0 <= i < |k| ==> d[i] == k[i];
    }
  }

  /**
    Two different valid addresses share one store key whenever the local part
    holds a '.' (as "a.b@x.io" and "a_b@x.io" do), so one account node serves both.
  */
  lemma KeyCollision(p: string, q: string, host: string, top: string)
    requires |host| > 0 && |top| > 0
    requires Email.AllPlain(p) && Email.AllPlain(q) && Email.AllPlain(host) && Email.AllPlain(top)
    ensures var tail := "@" + host + "." + top;
            && Email.IsValidEmail(p + "." + q + tail)
            && Email.IsValidEmail(p + "_" + q + tail)
            && p + "." + q + tail != p + "_" + q + tail
            && EncodeKey(p + "." + q + tail) == EncodeKey(p + "_" + q + tail)
  {
    var tail := "@" + host + "." + top;
    ValidWithSeparator(p, '.', q, host, top);
    ValidWithSeparator(p, '_', q, host, top);
    assert (p + "." + q + tail)[|p|] != (p + "_" + q + tail)[|p|];
    SwapSameKey(p, q, tail);
  }

  lemma ValidWithSeparator(p: string, c: char, q: string, host: string, top: string)
    requires |host| > 0 && |top| > 0 && Email.Plain(c)
    requires Email.AllPlain(p) && Email.AllPlain(q) && Email.AllPlain(host) && Email.AllPlain(top)
    ensures Email.IsValidEmail(p + [c] + q + ("@" + host + "." + top))
  {
    var local := p + [c] + q;
    Email.AllPlainJoin(p, c, q);
    Email.ValidFromParts(local, host, top);
    assert local + ("@" + host + "." + top) == local + "@" + host + "." + top;
  }

  /** Replacing one '.' by '_' leaves the store key unchanged. */
  lemma SwapSameKey(p: string, q: string, tail: string)
    ensures EncodeKey(p + "." + q + tail) == EncodeKey(p + "_" + q + tail)
  {
    var a, b := p + "." + q + tail, p + "_" + q + tail;
    assert forall i :: 0 <= i < |a| && i != |p| ==> a[i] == b[i];
    assert EncodeKey(a)[|p|] == EncodeKey(b)[|p|];
  }

  /** Two emails share a store key exactly when they differ only by '.' against '_'. */
  lemma SameKeyIff(a: string, b: string)
    ensures EncodeKey(a) == EncodeKey(b) <==>
              |a| == |b| && forall i :: 0 <= i < |a| ==> a[i] == b[i] || (a[i] in "._" && b[i] in "._")
  {
    if EncodeKey(a) == EncodeKey(b) {
      forall i | 0 <= i < |a|
        ensures a[i] == b[i] || (a[i] in "._" && b[i] in "._")
      {
        assert EncodeKey(a)[i] == EncodeKey(b)[i];
      }
    }
    if |a| == |b| && forall i :: 0 <= i < |a| ==> a[i] == b[i] || (a[i] in "._" && b[i] in "._") {
      assert forall i :: 0 <= i < |a| ==> EncodeKey(a)[i] == EncodeKey(b)[i];
    }
  }

  // ---------------------------------------------------------------- contacts

  /** A user's contacts node: each child's key is an encoded email and its value "true". */
  type Contacts = map<string, string>

  datatype ContactError = InvalidContactEmail | ContactKeyRefused

  /**
    Adding a contact: an invalid email writes nothing; a valid one whose key
    the store accepts sets exactly that key to "true". A valid email whose key
    the store refuses makes the update throw, which ends the command with
    nothing written.
  */
  function AddContact(contacts: Contacts, typed: string): (r: Result<Contacts, ContactError>)
    ensures r == Err(InvalidContactEmail) <==> !Email.IsValidEmail(typed)
    ensures r == Err(ContactKeyRefused) <==> Email.IsValidEmail(typed) && !IsStoreKey(EncodeKey(typed))
    ensures r.Ok? ==> r.value.Keys == contacts.Keys + {EncodeKey(typed)}
    ensures r.Ok? ==> r.value[EncodeKey(typed)] == "true"
    ensures r.Ok? ==> forall k :: k in contacts && k != EncodeKey(typed) ==> r.value[k] == contacts[k]
  {
    if !Email.IsValidEmail(typed) then Err(InvalidContactEmail)
    else if !IsStoreKey(EncodeKey(typed)) then Err(ContactKeyRefused)
    else Ok(contacts[EncodeKey(typed) := "true"])
  }

  /**
    The email check lets through addresses whose key the store refuses: any
    valid shape with a '#' in its local part passes the check and fails the write.
  */
  lemma ValidEmailRefusedKey(contacts: Contacts, p: string, q: string, host: string, top: string)
    requires |host| > 0 && |top| > 0
    requires Email.AllPlain(p) && Email.AllPlain(q) && Email.AllPlain(host) && Email.AllPlain(top)
    ensures var e := p + ['#'] + q + ("@" + host + "." + top);
            && Email.IsValidEmail(e)
            && AddContact(contacts, e) == Err(ContactKeyRefused)
  {
    var e := p + ['#'] + q + ("@" + host + "." + top);
    ValidWithSeparator(p, '#', q, host, top);
    assert e[|p|] == '#';
    assert EncodeKey(e)[|p|] == '#';
  }

  /** Deleting a contact sets exactly the selected key to null, which removes it. */
  function DeleteContact(contacts: Contacts, key: string): (r: Contacts)
    ensures r.Keys == contacts.Keys - {key}
    ensures forall k :: k in r ==> r[k] == contacts[k]
  {
    contacts - {key}
  }

  // ---------------------------------------------------------------- contact menu

  const AddOption := MenuOption("Add", "ADD:USER")
  const CancelOption := MenuOption("Cancel", "CNL:USER")

  predicate SortedByLabel(s: seq<MenuOption>)
  {
    forall i :: 0 <= i < |s| - 1 ==> Strings.LessEq(s[i].caption, s[i + 1].caption)
  }

  function InsertByLabel(x: MenuOption, s: seq<MenuOption>): (r: seq<MenuOption>)
    requires SortedByLabel(s)
    ensures SortedByLabel(r)
    ensures multiset(r) == multiset(s) + multiset{x}
    ensures |r| == |s| + 1
    ensures r[0] == x || (|s| > 0 && r[0] == s[0])
  {
    if |s| == 0 then [x]
    else if Strings.LessEq(x.caption, s[0].caption) then [x] + s
    else
      Strings.LessEqTotal(x.caption, s[0].caption);
      var rest := InsertByLabel(x, s[1..]);
      assert s == [s[0]] + s[1..];
      [s[0]] + rest
  }

  /** `sort` by label; stable insertion sort. */
  function SortByLabel(s: seq<MenuOption>): (r: seq<MenuOption>)
    ensures SortedByLabel(r)
    ensures multiset(r) == multiset(s)
    ensures |r| == |s|
  {
    if |s| == 0 then []
    else
      assert s == [s[0]] + s[1..];
      InsertByLabel(s[0], SortByLabel(s[1..]))
  }

  /** One menu entry per contact key: the decoded email as label and "DAT:" + key as value. */
  function ContactEntries(keys: seq<string>): (r: seq<MenuOption>)
    ensures |r| == |keys|
    ensures forall i :: 0 <= i < |keys| ==> r[i] == MenuOption(DecodeKey(keys[i]), "DAT:" + keys[i])
  {
    seq(|keys|, i requires 0 <= i < |keys| => MenuOption(DecodeKey(keys[i]), "DAT:" + keys[i]))
  }

  /** manageUsers' menu: the contacts sorted by label, then Add, then Cancel. */
  function ContactMenu(keys: seq<string>): (r: seq<MenuOption>)
    ensures |r| == |keys| + 2
    ensures r[|keys|] == AddOption && r[|keys| + 1] == CancelOption
    ensures SortedByLabel(r[..|keys|])
    ensures multiset(r[..|keys|]) == multiset(ContactEntries(keys))
  {
    var sorted := SortByLabel(ContactEntries(keys));
    assert (sorted + [AddOption, CancelOption])[..|keys|] == sorted;
    sorted + [AddOption, CancelOption]
  }

  /**
    The contact menu is faithful to the contacts: each of its first |keys|
    entries strips to one of the keys and is labelled with that key decoded,
    and every key is offered by some entry.
  */
  lemma ContactMenuSelection(keys: seq<string>)
    ensures forall j :: 0 <= j < |keys| ==>
              ContactMenu(keys)[j].value == "DAT:" + Untag(ContactMenu(keys)[j].value)
              && Untag(ContactMenu(keys)[j].value) in keys
              && ContactMenu(keys)[j].caption == DecodeKey(Untag(ContactMenu(keys)[j].value))
    ensures forall k :: k in keys ==>
              exists j :: 0 <= j < |keys| && Untag(ContactMenu(keys)[j].value) == k
  {
    forall j | 0 <= j < |keys|
      ensures ContactMenu(keys)[j].value == "DAT:" + Untag(ContactMenu(keys)[j].value)
      ensures Untag(ContactMenu(keys)[j].value) in keys
      ensures ContactMenu(keys)[j].caption == DecodeKey(Untag(ContactMenu(keys)[j].value))
    {
      MenuEntryIsKey(keys, j);
    }
    forall k | k in keys
      ensures exists j :: 0 <= j < |keys| && Untag(ContactMenu(keys)[j].value) == k
    {
      KeyIsOffered(keys, k);
    }
  }

  lemma MenuEntryIsKey(keys: seq<string>, j: nat)
    requires j < |keys|
    ensures ContactMenu(keys)[j].value == "DAT:" + Untag(ContactMenu(keys)[j].value)
    ensures Untag(ContactMenu(keys)[j].value) in keys
    ensures ContactMenu(keys)[j].caption == DecodeKey(Untag(ContactMenu(keys)[j].value))
  {
    var menu := ContactMenu(keys);
    var entries := ContactEntries(keys);
    var shown := menu[..|keys|];
    assert menu[j] == shown[j];
    assert shown[j] in multiset(entries);
    var i :| 0 <= i < |entries| && entries[i] == shown[j];
    assert ("DAT:" + keys[i])[4..] == keys[i];
  }

  lemma KeyIsOffered(keys: seq<string>, k: string)
    requires k in keys
    ensures exists j :: 0 <= j < |keys| && Untag(ContactMenu(keys)[j].value) == k
  {
    var menu := ContactMenu(keys);
    var entries := ContactEntries(keys);
    var shown := menu[..|keys|];
    var i :| 0 <= i < |keys| && keys[i] == k;
    assert entries[i] in multiset(shown);
    var j :| 0 <= j < |shown| && shown[j] == entries[i];
    assert menu[j] == shown[j];
    assert ("DAT:" + keys[i])[4..] == keys[i];
  }

  datatype ContactAction = CancelAction | DeleteAction

  /**
    One pass of manageUsers over the contacts node. `keys` is the snapshot's
    key list, `choice` the menu position picked, `typed` the email typed after
    Add, `action` the action picked for a contact.
  */
  function ManageUsers(contacts: Contacts, keys: seq<string>, choice: nat, typed: string, action: ContactAction): (r: Result<Contacts, ContactError>)
    requires forall k :: k in keys <==> k in contacts
    requires choice < |keys| + 2
    ensures choice == |keys| + 1 ==> r == Ok(contacts)
    ensures choice == |keys| ==> r == AddContact(contacts, typed)
    ensures choice < |keys| ==> r.Ok? && r.value.Keys <= contacts.Keys
    ensures choice < |keys| && action == DeleteAction ==> |r.value.Keys| == |contacts.Keys| - 1
    ensures choice < |keys| && action == DeleteAction ==>
              r == Ok(DeleteContact(contacts, Untag(ContactMenu(keys)[choice].value)))
    ensures choice < |keys| && action == CancelAction ==> r == Ok(contacts)
  {
    var menu := ContactMenu(keys);
    var picked := menu[choice].value;
    ContactMenuSelection(keys);
    assert choice < |keys| ==> picked[0] == 'D';
    if picked == CancelOption.value then Ok(contacts)
    else if picked == AddOption.value then AddContact(contacts, typed)
    else
      match action
      case CancelAction => Ok(contacts)
      case DeleteAction => Ok(DeleteContact(contacts, Untag(picked)))
  }

  // ---------------------------------------------------------------- provisioning

  /** The world-readable part of an account node. */
  datatype PublicNode = PublicNode(uid: string, email: string, publicKey: string)

  /** The owner-only part of an account node. */
  datatype PrivateNode = PrivateNode(uid: string, privateKey: string)

  /** An account node; a part that was never written is None. */
  datatype Account = Account(publicNode: Option<PublicNode>, privateNode: Option<PrivateNode>)

  /** The account nodes, keyed by encoded email. */
  type Accounts = map<string, Account>

  /** What the authentication service returns for a successful sign-in. */
  datatype Credential = Credential(uid: string, email: string, emailVerified: bool)

  datatype LoginError = LoginInvalidEmail | SignInRejected | EmailNotVerified | LoginKeyRefused

  function AccountAt(db: Accounts, key: string): Account
  {
    if key in db then db[key] else Account(None, None)
  }

  /**
    loginUser: the email is checked, the sign-in (`signIn`, None when the
    service rejects it) must succeed for a verified email, and only when the
    account's private node does not exist is `generated` (the newly generated key
    pair) written as its public and private nodes. A key the store refuses makes
    the node reference throw after the sign-in, which the login's catch reports.
  */
  function Login(db: Accounts, email: Option<string>, signIn: Option<Credential>, generated: Crypto.KeyPair): (r: Result<Accounts, LoginError>)
    ensures r.Ok? <==> (&& Email.IsValidEmail(Strings.StringOf(email)) && signIn.Some? && signIn.value.emailVerified
                        && IsStoreKey(EncodeKey(Strings.StringOf(email))))
    ensures r == Err(LoginKeyRefused) <==> (&& Email.IsValidEmail(Strings.StringOf(email)) && signIn.Some? && signIn.value.emailVerified
                                            && !IsStoreKey(EncodeKey(Strings.StringOf(email))))
    ensures r.Ok? ==> forall k :: k != EncodeKey(Strings.StringOf(email)) ==> AccountAt(r.value, k) == AccountAt(db, k)
    ensures r.Ok? ==> AccountAt(r.value, EncodeKey(Strings.StringOf(email))).privateNode.Some?
    ensures r.Ok? && AccountAt(db, EncodeKey(Strings.StringOf(email))).privateNode.Some? ==> r.value == db
    ensures r.Ok? && AccountAt(db, EncodeKey(Strings.StringOf(email))).privateNode.None? ==>
              AccountAt(r.value, EncodeKey(Strings.StringOf(email))) ==
                Account(Some(PublicNode(signIn.value.uid, signIn.value.email, generated.publicKey)),
                        Some(PrivateNode(signIn.value.uid, generated.privateKey)))
  {
    var e := Strings.StringOf(email);
    if !Email.IsValidEmail(e) then Err(LoginInvalidEmail)
    else
      match signIn
      case None => Err(SignInRejected)
      case Some(cred) =>
        if !cred.emailVerified then Err(EmailNotVerified)
        else if !IsStoreKey(EncodeKey(e)) then Err(LoginKeyRefused)
        else
          var key := EncodeKey(e);
          if AccountAt(db, key).privateNode.Some? then Ok(db)
          else
            Ok(db[key := Account(Some(PublicNode(cred.uid, cred.email, generated.publicKey)),
                                 Some(PrivateNode(cred.uid, generated.privateKey)))])
  }

  /**
    Provisioning happens once: a second login, whatever key pair it generates,
    leaves the accounts as the first login left them, so keys are never overwritten.
  */
  lemma LoginIdempotent(db: Accounts, email: Option<string>, signIn: Option<Credential>, first: Crypto.KeyPair, second: Crypto.KeyPair)
    requires Login(db, email, signIn, first).Ok?
    ensures Login(Login(db, email, signIn, first).value, email, signIn, second) == Login(db, email, signIn, first)
  {
  }

  /**
    Because '.' and '_' encode alike, after "a.b@x.io" has logged in, a login
    as "a_b@x.io" (any two valid addresses with one key) finds the private
    node present and provisions nothing.
  */
  lemma CollidingLoginProvisionsNothing(db: Accounts, e1: string, e2: string, c1: Credential, c2: Credential, k1: Crypto.KeyPair, k2: Crypto.KeyPair)
    requires Email.IsValidEmail(e1) && Email.IsValidEmail(e2) && EncodeKey(e1) == EncodeKey(e2)
    requires IsStoreKey(EncodeKey(e1))
    requires c1.emailVerified && c2.emailVerified
    ensures Login(db, Some(e1), Some(c1), k1).Ok?
    ensures var db1 := Login(db, Some(e1), Some(c1), k1).value;
            Login(db1, Some(e2), Some(c2), k2) == Ok(db1)
  {
  }
}

=== FILE: utf8.dfy ===
/**
  UTF-8 (RFC 3629), the conversion `Buffer.from(text, 'utf8')` applies to a
  string before it is encrypted and `buffer.toString('utf8')` applies after
  it is decrypted. Characters are Unicode scalar values.
*/
module Utf8 {
  import opened Wrappers

  /** The one to four octets of a character. */
  function EncodeChar(c: char): (r: seq<byte>)
    ensures 1 <= |r| <= 4
    ensures |r| == 1 <==> c as int < 0x80
  {
    var cp := c as int;
    if cp < 0x80 then [cp]
    else if cp < 0x800 then [0xC0 + cp / 64, 0x80 + cp % 64]
    else if cp < 0x10000 then
      var q := cp / 64;
      [0xE0 + q / 64, 0x80 + q % 64, 0x80 + cp % 64]
    else
      var q := cp / 64;
      var q2 := q / 64;
      [0xF0 + q2 / 64, 0x80 + q2 % 64, 0x80 + q % 64, 0x80 + cp % 64]
  }

  function Encode(s: string): (r: seq<byte>)
    ensures |s| <= |r| <= 4 * |s|
  {
    if |s| == 0 then [] else EncodeChar(s[0]) + Encode(s[1..])
  }

  predicate IsContinuation(b: byte) { 0x80 <= b < 0xC0 }

  /**
    Reads the character at the front of `b` and how many octets it took. Overlong
    forms, surrogates, values past U+10FFFF and stray continuation octets are errors.
  */
  function DecodeChar(b: seq<byte>): (r: Option<(char, nat)>)
    requires |b| >= 1
    ensures r.Some? ==> 1 <= r.value.1 <= |b|
  {
    var b0: int := b[0];
    if b0 < 0x80 then Some((b0 as char, 1))
    else if 0xC2 <= b0 < 0xE0 then
      if |b| < 2 || !IsContinuation(b[1]) then None
      else Some((((b0 - 0xC0) * 64 + (b[1] as int - 0x80)) as char, 2))
    else if 0xE0 <= b0 < 0xF0 then
      if |b| < 3 || !IsContinuation(b[1]) || !IsContinuation(b[2]) then None
      else
        var cp := ((b0 - 0xE0) * 64 + (b[1] as int - 0x80)) * 64 + (b[2] as int - 0x80);
        if cp < 0x800 || (0xD800 <= cp && cp < 0xE000) then None else Some((cp as char, 3))
    else if 0xF0 <= b0 <= 0xF4 then
      if |b| < 4 || !IsContinuation(b[1]) || !IsContinuation(b[2]) || !IsContinuation(b[3]) then None
      else
        var cp := (((b0 - 0xF0) * 64 + (b[1] as int - 0x80)) * 64 + (b[2] as int - 0x80)) * 64 + (b[3] as int - 0x80);
        if cp < 0x10000 || cp > 0x10FFFF then None else Some((cp as char, 4))
    else None
  }

  function Decode(b: seq<byte>): (r: Option<string>)
    decreases |b|
  {
    if |b| == 0 then Some("")
    else
      match DecodeChar(b)
      case None => None
      case Some((c, n)) =>
        match Decode(b[n..])
        case None => None
        case Some(rest) => Some([c] + rest)
  }

  /** The octets of a character, followed by anything, decode back to that character. */
  lemma DecodeCharOfEncoding(c: char, rest: seq<byte>)
    ensures DecodeChar(EncodeChar(c) + rest) == Some((c, |EncodeChar(c)|))
  {
  }

  /** Decoding recovers every string from its UTF-8 octets. */
  lemma {:induction false} RoundTrip(s: string)
    ensures Decode(Encode(s)) == Some(s)
  {
    if |s| > 0 {
      var e := EncodeChar(s[0]);
      var b := Encode(s);
      DecodeCharOfEncoding(s[0], Encode(s[1..]));
      assert b[|e|..] == Encode(s[1..]);
      RoundTrip(s[1..]);
      assert s == [s[0]] + s[1..];
    }
  }

  /** Text made only of ASCII characters takes one octet per character. */
  lemma {:induction false} AsciiLength(s: string)
    requires forall k :: 0 <= k < |s| ==> s[k] as int < 0x80
    ensures |Encode(s)| == |s|
  {
    if |s| > 0 {
      AsciiLength(s[1..]);
    }
  }
}

=== FILE: wrappers.dfy ===
/** Failure-carrying result types shared by every module of the model. */
module Wrappers {

  /** A value that may be absent: a missing store node, an undefined JavaScript value. */
  datatype Option<+T> = None | Some(value: T)

  /** The outcome of an operation that can fail with an error of type E. */
  datatype Result<+T, +E> = Ok(value: T) | Err(error: E)

  /** Octets, as held by a Node.js Buffer. */
  type byte = b: int | 0 <= b < 256
}
